=== FILE: README.md ===
# Mobile accounts and transactions: a Dafny model

This project models the control logic of the desktop client's mobile
account views. Each view's rendering is left out; what remains is modelled:

- The small utilities: `getModalRoute`, `isMobile` and `groupById`.
- The transaction edit form. This covers the preview-id test, the payee and
  transfer description, the category label and the edit form's title. It also
  covers the date and amount adapters (`serializeTransaction` and
  `deserializeTransaction`) and the working set with its single queued change
  (`onEdit`, `onQueueChange` and `onSave`).
- The transaction list. It groups an ordered list of rows into date sections
  (`makeData`) and flags the trailing row of every section that another
  section closes. It also has write paths: the optimistic-or-refetch choice
  after an edit, adding, splitting, and merging rule results into empty
  fields.
- The account screen. This covers the schedule-preview rows, the schedule
  query, the single paged cursor, the reaction to sync events and the query
  chosen on search.
- The accounts page. Closed accounts are dropped, and the open ones are split
  into budgeted and off-budget lists. Selecting an account navigates to it.
- The account details view. Previews come ahead of the fetched transactions.
  It also decides when categories show, and holds the search input.
- `StackedRoutes`. It unwinds the chain of `locationPtr` states into a base
  page and a stack of modals.

JavaScript's values are modelled only as far as the code relies on them
(`js.dfy`):

- `undefined`, `null`, strings, numbers and booleans;
- plain objects as field maps, where a missing field reads as `undefined`;
- truthiness, loose `== null`, and `a || b`.

Code the views call but that is not part of this model is passed in as
function-valued parameters:

- loot-core's `updateTransaction`, `realizeTempTransactions` and split
  helpers;
- date parsing and formatting;
- the amount conversions;
- today's date.

Side effects are returned in order as a list of effects. These are the
batch-update request, the optimistic change, and the refetch.

The file `accounts/Transactions.js` carries the same code as
`accounts/MobileTransaction.js`: the preview test, the description, the
adapters, the edit form, the row's colours and `makeData`. One model serves
both, and the source cells cite the mobile file.

Behaviour the model takes from the code:

- `makeData` is commented as marking the last transaction of each section.
  The code flags a section's trailing row only when a later date opens a new section,
  so the final section's trailing row is never flagged. `DateSections.Flagged`
  and the lemmas about it state the code's behaviour.
- `onSearch` calls `paged.unsubscribe()` without checking that a cursor
  exists, so with no cursor it throws. The model returns `None` in that case.
- `onSelectAccount` with an id that no account has throws when it reads `name`
  of `undefined`. The model returns `None`.

## Model

| member | source | states |
|---|---|---|
| `Util.GetModalRoute` | packages/desktop-client/src/util.js:1-4 | The route part never contains '/'. When the name has a '/', the two parts joined by '/' give the name back, so everything after the first separator is kept. Without a '/', the whole name is the route and the rest is empty. |
| `Util.JoinSplit` | packages/desktop-client/src/util.js:2-3 | `split('/')` followed by `join('/')` returns the original string. |
| `Util.SplitAtSeparator` | packages/desktop-client/src/util.js:2-3 | A name containing '/' splits into at least two parts, so the modal route's second component exists. |
| `Util.IsMobile` | packages/desktop-client/src/util.js:6-10 | A given non-zero width is compared with 600. An absent or zero width falls back to the window's inner width. |
| `Util.IsMobileMonotone` | packages/desktop-client/src/util.js:6-10 | A narrower non-zero container width is mobile whenever a wider one is. |
| `Util.GroupById` | packages/desktop-client/src/util.js:12-19 | Every item's id is a key. Each key maps to the last item carrying that id. Each entry is stored under its own id. |
| `Util.LastWithIdExtend` | packages/desktop-client/src/util.js:14-17 | Writing one more item under its id keeps every entry equal to the last item with that id. |
| `Util.GroupByIdLaterWins` | packages/desktop-client/src/util.js:14-17 | With repeated ids, the item written last is the one kept. |
| `Util.GroupByIdKeys` | packages/desktop-client/src/util.js:12-19 | The keys are exactly the ids that occur in the data. |
| `TransactionDisplay.IndexOf` | packages/desktop-client/src/components/accounts/MobileTransaction.js:60 | `indexOf` returns the first occurrence at or after the start (clamped to the length), or -1 exactly when there is none. |
| `TransactionDisplay.IsPreviewId` | packages/desktop-client/src/components/accounts/MobileTransaction.js:59-61 | An id is a preview id exactly when "preview/" occurs somewhere in it. |
| `TransactionDisplay.PreviewPrefixIsPreview` | packages/desktop-client/src/components/accounts/MobileAccount.js:59 | Every id built as `'preview/' + schedule.id` passes the preview test. |
| `TransactionDisplay.PreviewMarkerInMiddle` | packages/desktop-client/src/components/accounts/MobileTransaction.js:59-61 | The test is a substring test, not a prefix test. "txn-preview/7" is a preview id although it does not start with the marker. |
| `TransactionDisplay.DescriptionPretty` | packages/desktop-client/src/components/accounts/MobileTransaction.js:63-73 | A transfer account wins: the text starts with "Transfer " and ends with the transfer account's name. Otherwise it is the payee's name, or empty without a payee. |
| `TransactionDisplay.DescriptionTransferDirection` | packages/desktop-client/src/components/accounts/MobileTransaction.js:66-67 | For a transfer the payee plays no part. The text reads "Transfer from" exactly when the amount is strictly positive; zero reads "to". |
| `TransactionDisplay.DescriptionEmpty` | packages/desktop-client/src/components/accounts/MobileTransaction.js:63-73 | The description is empty exactly when there is no transfer and no payee, or the payee's name is empty. |
| `TransactionDisplay.ResolvePayee` | packages/desktop-client/src/components/accounts/MobileTransaction.js:758 | A payee is found only in a loaded list and only with the row's id. Any listed payee with a present id is found. |
| `TransactionDisplay.ResolveTransferAccount` | packages/desktop-client/src/components/accounts/MobileTransaction.js:759-762 | The account found is the one the payee's `transfer_acct` names, and it is found whenever a listed account has that id. There is none without a payee or without a transfer id. |
| `TransactionDisplay.DescriptionText` | packages/desktop-client/src/components/accounts/MobileTransaction.js:821 | The row's main text is never empty. A non-empty description is shown as it is. |
| `TransactionDisplay.CategoryText` | packages/desktop-client/src/components/accounts/MobileTransaction.js:769-773 | The category text is never empty. The priority is "Transfer", then "Split" for a parent, then the category name, then "Uncategorized". |
| `TransactionDisplay.TransferLabelsAgree` | packages/desktop-client/src/components/accounts/MobileTransaction.js:769-773 | With a transfer account, the category reads "Transfer" and the description starts with "Transfer ". Without one, either label can read that way only through a category or payee the user named so. |
| `TransactionDisplay.StatusColor` | packages/desktop-client/src/components/accounts/MobileTransaction.js:702-732 | The status line is red exactly for "missed", yellow exactly for "due" and grey exactly for "upcoming". Any other status gets no colour. |
| `TransactionDisplay.RowColors` | packages/desktop-client/src/components/accounts/MobileTransaction.js:775-867 | Only a preview has a status line, and it takes its status's colour. A preview's amount, and its description when non-empty, are the fixed grey `n5` whatever its status. An empty description is `n6`. The schedule icon is drawn only for a row with a schedule, in the preview grey or `n1`. |
| `TransactionDisplay.StatusOnlyOnStatusLine` | packages/desktop-client/src/components/accounts/MobileTransaction.js:775-867 | Two previews that differ only in status render description, amount and icon alike. Their status lines differ exactly when their status colours do. |
| `TransactionDisplay.ForcedSign` | packages/desktop-client/src/components/accounts/MobileTransaction.js:352-354 | Split children take a negative sign exactly when the parent amount is below zero. Zero counts as positive. |
| `TransactionDisplay.ForcedSignMatchesDirection` | packages/desktop-client/src/components/accounts/MobileTransaction.js:352-367 | For a non-zero parent amount, split children are forced positive exactly when the description reads "Transfer from". At zero the description reads "Transfer to" while the children are forced positive. |
| `TransactionDisplay.EditTitle` | packages/desktop-client/src/components/accounts/MobileTransaction.js:399-403 | Without a payee the title is "New Transaction" while adding and "Transaction" otherwise. With a payee it is the description. |
| `Serialization.ParseTypedDate` | packages/desktop-client/src/components/accounts/MobileTransaction.js:87-108 | A day/month date is accepted exactly when it parses to a valid date. Any other date is accepted exactly when it is valid and after the year 2000. An accepted date yields the parsed day. |
| `Serialization.FallbackDate` | packages/desktop-client/src/components/accounts/MobileTransaction.js:110-114 | The fallback is never null. It is the original transaction's date when that date is truthy, and today otherwise. |
| `Serialization.Deserialize` | packages/desktop-client/src/components/accounts/MobileTransaction.js:84-117 | The result has the input's fields plus `date` and `amount`. Every other field passes through unchanged. An accepted typed date is the one stored, and the date is never null. A truthy amount is converted with `amountToInteger`, and a falsy one converts as 0. |
| `Serialization.DeserializeRejectedDate` | packages/desktop-client/src/components/accounts/MobileTransaction.js:110-114 | A rejected typed date is replaced by the fallback and never reaches storage. |
| `Serialization.YearGate` | packages/desktop-client/src/components/accounts/MobileTransaction.js:100-107 | A full-format date in 2000 or earlier is rejected even when it is a valid date. |
| `Serialization.Serialize` | packages/desktop-client/src/components/accounts/MobileTransaction.js:75-82 | Only `date` and `amount` are rewritten. Every other field passes through. |
| `Serialization.SerializeRoundTrip` | packages/desktop-client/src/components/accounts/MobileTransaction.js:75-117 | Suppose the display format writes a date that parses back to the same day after 2000, and the amount conversions invert each other. Then deserializing the serialized form of a stored transaction gives it back unchanged. |
| `EditSession.OnEdit` | packages/desktop-client/src/components/accounts/MobileTransaction.js:182-199 | An edit replaces the working set with the data engine's update of the edited, deserialized row. It returns that set and drops the queued change. |
| `EditSession.OnQueueChange` | packages/desktop-client/src/components/accounts/MobileTransaction.js:201-208 | A keystroke overwrites the single queued-change slot and leaves the working set alone. |
| `EditSession.EditRejectedDateIsToday` | packages/desktop-client/src/components/accounts/MobileTransaction.js:186-193 | `onEdit` deserializes with no original row, so a rejected typed date is stored as today, not as the row's previous date. |
| `EditSession.OnPick` | packages/desktop-client/src/components/accounts/MobileTransaction.js:210-263 | A pick acts only for the category, account and payee fields. It acts exactly when the transaction is in the working set, and then it is `onEdit` applied to the serialized form of the first transaction with that id. |
| `EditSession.PickStoresId` | packages/desktop-client/src/components/accounts/MobileTransaction.js:215-226 | With no `onEdit` hook, the row a pick hands to the data engine holds the picked id in the picked field. Every field other than the date and the amount keeps the stored row's value. |
| `EditSession.OnSave` | packages/desktop-client/src/components/accounts/MobileTransaction.js:153-176 | The save is ignored exactly when some transaction of the working set has no account, checked before the queued change. Otherwise the queued change is applied first. Temporary ids are realized only when adding. The slot is empty afterwards. |
| `EditSession.QueuedChangeFlushedOnSave` | packages/desktop-client/src/components/accounts/MobileTransaction.js:153-176 | When every row has an account before the change, a change still queued at save time is saved exactly as `onEdit` would apply it, even if the edit empties an account. It is the same save as committing the change first exactly when the edited rows all keep an account. |
| `EditSession.QueuedSaveChecksBeforeFlush` | packages/desktop-client/src/components/accounts/MobileTransaction.js:153-168 | A save with a queued change is ignored exactly when a row lacks an account before the change. Saving after committing the change is ignored exactly when a row lacks one after it. So a change that would fill the missing account is lost from a queued save. |
| `EditSession.LastQueuedChangeWins` | packages/desktop-client/src/components/accounts/MobileTransaction.js:201-208 | Of two queued changes, only the later one affects the save. |
| `EditSession.EditClearsQueue` | packages/desktop-client/src/components/accounts/MobileTransaction.js:196-197 | After a committed edit, saving applies nothing twice: it saves the working set as it stands. |
| `EditSession.RealizeOnlyWhenAdding` | packages/desktop-client/src/components/accounts/MobileTransaction.js:170-172 | The adding save is the editing save with temporary ids realized, so realization happens after the queued change. |
| `TransactionListSave.BatchUpdate` | packages/desktop-client/src/components/accounts/MobileTransactionList.js:66-70 | The batch-update request carries the diff and asks the engine to learn categories. |
| `TransactionListSave.SaveDiffResult` | packages/desktop-client/src/components/accounts/MobileTransactionList.js:71-74 | `saveDiff` reports updates exactly when the engine returned some, and then exactly those. |
| `TransactionListSave.ApplySaveReply` | packages/desktop-client/src/components/accounts/MobileTransactionList.js:77-82 | The second `onChange` of `saveDiffAndApply` merges the engine's reply into the row and the data. The reply is `{}` exactly when the engine returned no updates, and otherwise those updates. |
| `TransactionListSave.EmptyReplyReshowsOptimistic` | packages/desktop-client/src/components/accounts/MobileTransactionList.js:66-82 | With no remote updates the reply is `{}`. If merging `{}` changes nothing, the second `onChange` shows exactly what the optimistic update showed. |
| `TransactionListSave.Optimistic` | packages/desktop-client/src/components/accounts/MobileTransactionList.js:152-153 | The optimistic path shows the change first, then saves the diff and applies the engine's reply to the same changes. |
| `TransactionListSave.StampFirstUpdate` | packages/desktop-client/src/components/accounts/MobileTransactionList.js:146-148 | Only the first update changes: it gains `sort_order = now`. The other updates, the additions and the deletions are kept. |
| `TransactionListSave.OnSave` | packages/desktop-client/src/components/accounts/MobileTransactionList.js:140-156 | With no updated row nothing happens. A date change is stamped, saved and followed by a refetch. Any other change is shown optimistically, then saved. |
| `TransactionListSave.OnSaveRefetchOrOptimistic` | packages/desktop-client/src/components/accounts/MobileTransactionList.js:143-155 | A save refetches exactly when it does something and does not start by showing the change. The two paths never mix. |
| `TransactionListSave.OnAdd` | packages/desktop-client/src/components/accounts/MobileTransactionList.js:133-138 | New rows are realized, saved as additions only, and always followed by a refetch. |
| `TransactionListSave.OnSplit` | packages/desktop-client/src/components/accounts/MobileTransactionList.js:165-170 | A split is shown and saved optimistically. The first added row's id is returned, and there is none exactly when nothing was added. |
| `TransactionListSave.WritePathsOneStrategy` | packages/desktop-client/src/components/accounts/MobileTransactionList.js:46-64 | Adding, splitting and every save that writes something each either show the change optimistically or refetch, never both and never neither. Additions carry no updated or deleted rows. |
| `TransactionListSave.ApplyRules` | packages/desktop-client/src/components/accounts/MobileTransactionList.js:172-189 | A rule result fills a field only where the row's value is `null`/`undefined`, `''` or `0`. Every other field keeps its value. With no diff the row is unchanged. |
| `TransactionListSave.ApplyRulesIdempotent` | packages/desktop-client/src/components/accounts/MobileTransactionList.js:176-187 | Applying the same rule diff a second time changes nothing. |
| `DateSections.MakeData` | packages/desktop-client/src/components/accounts/MobileTransaction.js:875-903 | The one-pass loop returns the reference grouping, with every section except the final one flagged. |
| `DateSections.AddRow` | packages/desktop-client/src/components/accounts/MobileTransaction.js:878-897 | Handling one row maps the flagged grouping of the rows so far to the flagged grouping with that row added: a new date flags the trailing row of the section it closes and opens an empty section, and a non-child row joins the last section. |
| `DateSections.GroupFlatten` | packages/desktop-client/src/components/accounts/MobileTransaction.js:891-893 | The rows of all sections, in order, are exactly the non-child input rows. Nothing is lost, duplicated or reordered. |
| `DateSections.GroupDates` | packages/desktop-client/src/components/accounts/MobileTransaction.js:878-889 | A section opens exactly where the input's date changes. The section dates are the starts of the runs of equal dates. |
| `DateSections.RunDates` | packages/desktop-client/src/components/accounts/MobileTransaction.js:876 | The run dates end with the last row's date, and neighbouring sections never share a date. |
| `DateSections.GroupWellDated` | packages/desktop-client/src/components/accounts/MobileTransaction.js:885-893 | Every section is keyed by its date and holds only non-child rows of that date. |
| `DateSections.FlaggedPlacement` | packages/desktop-client/src/components/accounts/MobileTransaction.js:880-886 | Flagging keeps every section's date and size. It changes only the trailing row of a section that is followed by another, and only by setting `isLast`. The final section is untouched. |
| `DateSections.FlagSetExactly` | packages/desktop-client/src/components/accounts/MobileTransaction.js:880-886 | A row has `isLast` exactly when it had it already or it closes a section that another follows. |
| `DateSections.ExampleTwoDays` | packages/desktop-client/src/components/accounts/MobileTransaction.js:878-897 | For any two non-child rows sharing a date followed by a non-child row of another date, there are two sections; only the first day's second row is flagged, and the final section's row is not. |
| `DateSections.ExampleChildOnlyDate` | packages/desktop-client/src/components/accounts/MobileTransaction.js:878-897 | For any non-child row followed by a child row of another date, the child opens an empty section, and that closes and flags the section before it. |
| `DateSections.ExampleDateReturns` | packages/desktop-client/src/components/accounts/MobileTransaction.js:876-889 | The grouping does not sort: for any three rows whose date changes and then returns, the returning date opens a second section of its own. |
| `AccountView.PreviewOf` | packages/desktop-client/src/components/accounts/MobileAccount.js:58-66 | A preview row's id is `preview/` followed by the schedule's id, so it passes the preview test. It copies the schedule's payee, account, amount and next date, is not a split child, and carries the schedule's id and status. |
| `AccountView.PreviewTransactions` | packages/desktop-client/src/components/accounts/MobileAccount.js:44-68 | Without schedule data there is no list at all. Otherwise there is one preview per shown schedule, in schedule order, each built from that schedule and its status. |
| `AccountView.PreviewsFollowSchedules` | packages/desktop-client/src/components/accounts/MobileAccount.js:51-55 | Every shown schedule, and only those, gives a preview. Previews keep the schedules' relative order. |
| `AccountView.SchedulesTransform` | packages/desktop-client/src/components/accounts/MobileAccount.js:30-42 | Schedules are filtered out exactly when a search is active. Schedules of closed accounts are excluded, and the newest next date comes first. |
| `AccountView.PreviewStatusColored` | packages/desktop-client/src/components/accounts/MobileAccount.js:51-66 | Every preview row shows its schedule's status on a status line that has a colour, because a previewed schedule is due, upcoming or missed. |
| `AccountView.UpdateQuery` | packages/desktop-client/src/components/accounts/MobileAccount.js:102-112 | The old cursor is unsubscribed before a new one, paging by 150, takes the slot. Exactly one cursor is then subscribed. |
| `AccountView.AtMostOneLive` | packages/desktop-client/src/components/accounts/MobileAccount.js:102-112 | Under the slot invariant, at most one cursor is ever subscribed. |
| `AccountView.Unsubscribe` | packages/desktop-client/src/components/accounts/MobileAccount.js:170 | Unsubscribing fails exactly when there is no cursor. Otherwise no cursor is left subscribed. |
| `AccountView.OnSyncEvent` | packages/desktop-client/src/components/accounts/MobileAccount.js:125-139 | Only `applied` events act. The cursor re-runs for transaction, category-mapping or payee-mapping changes when there is a cursor. Payees are refetched for payee or payee-mapping changes. |
| `AccountView.PayeeMappingTriggersBoth` | packages/desktop-client/src/components/accounts/MobileAccount.js:127-137 | A payee-mapping change alone both re-runs the cursor and refetches payees. |
| `AccountView.SyncEventSplits` | packages/desktop-client/src/components/accounts/MobileAccount.js:125-139 | An event naming two table lists does exactly what the two events do together: each reaction is the OR of theirs. |
| `AccountView.OnLoadMore` | packages/desktop-client/src/components/accounts/MobileAccount.js:270 | A next page is requested exactly when a cursor exists. |
| `AccountView.QueryFor` | packages/desktop-client/src/components/accounts/MobileAccount.js:176-186 | The account's own query is reinstated exactly when the filter is empty. Otherwise the result is a search over it with the filter text. |
| `AccountView.FetchTransactions` | packages/desktop-client/src/components/accounts/MobileAccount.js:114-119 | The account's root query becomes current and the only subscribed cursor runs over it. |
| `AccountView.OnSearchAsWritten` | packages/desktop-client/src/components/accounts/MobileAccount.js:169-187 | As written, the stored text becomes the new text, but the installed query is chosen from the filter of the previous render. |
| `AccountView.StaleSearchFilter` | packages/desktop-client/src/components/accounts/MobileAccount.js:169-187 | As written, the first keystroke after an empty filter reinstalls the plain account query instead of searching. |
| `AccountView.OnSearch` | packages/desktop-client/src/components/accounts/MobileAccount.js:169-173 | With the text it was given, the search installs the account query exactly when the text is empty, and a search for the text otherwise. Exactly one cursor is subscribed. |
| `AccountView.SearchUsesNewText` | packages/desktop-client/src/components/accounts/MobileAccount.js:169-187 | With the intended text, the first keystroke searches for that text. |
| `AccountView.SchedulesHiddenExactlyWhenSearching` | packages/desktop-client/src/components/accounts/MobileAccount.js:243-244 | With the text `onSearch` is given, schedules are hidden exactly when the installed query is a search. |
| `AccountView.StaleSearchHidesSchedules` | packages/desktop-client/src/components/accounts/MobileAccount.js:169-187 | As written, the first keystroke of a search hides the schedules while the plain account query is still installed. |
| `AccountsPage.AccountList` | packages/desktop-client/src/components/accounts/MobileAccounts.js:182-192 | The empty message shows exactly when there are no accounts. Otherwise "Budgeted" lists the accounts whose flag is exactly 0, and "Off budget" those whose flag is exactly 1, each in order. |
| `AccountsPage.PartitionSizes` | packages/desktop-client/src/components/accounts/MobileAccounts.js:182-187 | The two lists plus the accounts with any other flag value account for every account exactly once. |
| `AccountsPage.PartitionMembership` | packages/desktop-client/src/components/accounts/MobileAccounts.js:182-187 | An account is budgeted exactly when its flag is 0 and off-budget exactly when it is 1, so never both. |
| `AccountsPage.VisibleAccounts` | packages/desktop-client/src/components/accounts/MobileAccounts.js:295 | Only open accounts reach the list, and every open account does. |
| `AccountsPage.AccountsPage` | packages/desktop-client/src/components/accounts/MobileAccounts.js:291-295 | The page shows the empty message exactly when every account is closed. Otherwise the budgeted list is exactly the open accounts with flag 0, and the off-budget list exactly the open accounts with flag 1, each in input order. |
| `AccountsPage.IsNewTransaction` | packages/desktop-client/src/components/accounts/MobileAccounts.js:164-166 | An id counts as new exactly when it is among the new transactions. The account screen's copy is at MobileAccount.js:165-167. |
| `AccountsPage.OnSelectAccount` | packages/desktop-client/src/components/accounts/MobileAccounts.js:267-270 | Selecting navigates with the id, titled with the name of the first account that has that id. It fails exactly when no account has it. |
| `AccountsPage.SelectListedAccount` | packages/desktop-client/src/components/accounts/MobileAccounts.js:267-270 | Selecting any listed account navigates to its id. When no other account shares that id, the title is its own name. |
| `AccountDetails.AllTransactions` | packages/desktop-client/src/components/accounts/MobileAccountDetails.js:76-78 | The listed transactions are the previews followed by the fetched transactions. |
| `AccountDetails.ListedRows` | packages/desktop-client/src/components/accounts/MobileAccountDetails.js:76-78 | Once grouped by date, the rows shown are all the previews first, then the fetched non-child transactions, each in order. |
| `AccountDetails.ShowCategory` | packages/desktop-client/src/components/accounts/MobileAccountDetails.js:168 | Categories are shown exactly for an account whose `offbudget` flag is 0. |
| `AccountDetails.ShowCategoryMatchesBudgeted` | packages/desktop-client/src/components/accounts/MobileAccountDetails.js:168 | Every open account is on the accounts page. Its screen shows categories exactly when the page lists it as budgeted. |
| `AccountDetails.OnSearchInputChange` | packages/desktop-client/src/components/accounts/MobileAccountDetails.js:18-24 | The input stores the new text and forwards the full current text to the search. |
| `AccountDetails.SearchInputDrivesQuery` | packages/desktop-client/src/components/accounts/MobileAccountDetails.js:18-24 | A keystroke installs the query for the whole text now in the input: a search for it, or the account's query when the input is empty. |
| `StackedRoutes.ChainLinked` | packages/desktop-client/src/components/FinancesApp.js:140-144 | Following `locationPtr` gives a chain in which each location was opened over the one before it, ending at the start. |
| `StackedRoutes.Unwind` | packages/desktop-client/src/components/FinancesApp.js:136-163 | The base page followed by the modal stack is the whole pointer chain, oldest first, and ends at the current location. The base has no pointer. Exactly the last modal is marked current. |

## Left out

- Rendering, styling and layout of every view are not modelled, apart from the row colours in `TransactionDisplay.RowColors`. This covers section headers, balances, icon shapes, and the scroll position that triggers "load more".
- The data engine is not modelled. loot-core's `updateTransaction`, `realizeTempTransactions`, `splitTransaction`, `addSplitTransaction`, `applyTransactionDiff`, `applyChanges`, `getChangedValues`, the query builders and `pagedQuery` are parameters or opaque values: they are code outside this model.
- Date handling is not modelled. date-fns parsing and formatting, `monthUtils` and the current date are parameters (`Serialization.DateLib`), so no calendar arithmetic is modelled.
- The amount conversions `amountToInteger` and `integerToAmount` are not modelled. They are parameters, so decimal rounding is not modelled.
- Messaging, navigation and timing are not modelled: `send`, `listen`, navigation calls, `await` ordering and the 150 ms debounce. Each handler is modelled as one atomic step, and concurrent interleavings are out of scope.
- Selecting a transaction is left out. The account screen passes a handler that does nothing (MobileAccount.js:272). Its own `onSelectTransaction` (MobileAccount.js:189-231) would send the schedule post and skip commands or open the edit screen, but it is not wired up. The accounts page's `onSelectTransaction` only navigates to the edit screen (MobileAccounts.js:272-274). The list row's `onSelect` is a handler that does nothing (MobileTransaction.js:950).
- The desktop `TransactionList` render method is left out because it is layout.
- The edit form's `onSplit`, `onAddSplit` and `onDeleteSplit` are left out. Their logic lives in loot-core's split helpers, which are not part of this model.
- `onDelete` is left out. It is a callback passed in by the screen that hosts the form.
- `onTap` is modelled only by the callback its picker calls (`EditSession.OnPick`). Opening the category, account or payee picker is navigation.
- `lookupName` throwing on an unknown category id is not modelled. Category names are passed in already resolved.
- The transaction `updated` highlight, `ServerURL`, forms and hooks are not part of this model.
- `makeData` sets `isLast` by mutating the caller's row objects, which are shared with the input list. The model returns flagged copies and does not model that aliasing.
- Numbers are mathematical integers and reals. NaN, infinities and `-0` are not modelled.
- `getPayeesById` and `getAccountsById` (MobileTransaction.js:56-57) are `groupById` wrapped in `memoizeOne`. That `groupById` is loot-core's shared utility (imported at MobileTransaction.js:24-29), which is not part of this model. The model assumes it behaves like desktop-client's own `groupById` (util.js:12-19) and calls `Util.GroupById`. The memoization is not modelled.
- The desktop row's `textStyleWithColor` (Transactions.js:771-781) is computed but never rendered, so it is not modelled. `TransactionDisplay.RowColors` models the colours the rows do render.
- `getLocationState(location, 'locationPtr')` is modelled as the `ptr` field of `StackedRoutes.Location`. A location therefore holds its predecessor as a value, so a chain of pointers cannot be cyclic. A cyclic chain would make the source's `while` loop run forever, and that case is not modelled.
- `TransactionDisplay.IndexOf`: positions count characters, not UTF-16 code units. The only call searches for the ASCII `preview/` and compares the result with -1, so this does not change the outcome.
- The accounts page's "add account" button and its navigation are left out.
- `EditSession.QueuedChangeFlushedOnSave`: a queued save equals committing the change first only when the edited rows all keep an account. `onSave` checks accounts before it applies the queued change and never after, and `EditSession.QueuedSaveChecksBeforeFlush` states where the two differ.
- `TransactionListSave.OnAdd`: the source sends `{added}` with no `updated` or `deleted` fields. The model sends empty lists for both.
- `Util.IsMobile`: the width is an optional integer. A NaN width, which `||` also treats as falsy, is not modelled.
- `EditSession.OnEdit`: the optional `onEdit` hook runs as a pure function. It is awaited in the source, and its asynchrony is not modelled.

## Findings

| source | as written | input that shows it | evidently intended | confidence | as-written member | corrected member |
|---|---|---|---|---|---|---|
| packages/desktop-client/src/components/accounts/MobileAccount.js:169-187 | `onSearch(text)` stores the text, then calls the `onSearchDone` created in the same render. That closure reads the `filter` state from before the text was stored, so the query is chosen from the previous text. | The filter is "" and the user types "rent": the plain account query is installed again instead of a search for "rent". | The query is chosen from the text just typed: a search for `text`, or the account's query when `text` is empty. | not executed | `AccountView.OnSearchAsWritten` (with `AccountView.StaleSearchFilter`) | `AccountView.OnSearch` (with `AccountView.SearchUsesNewText`) |

=== FILE: account_details.dfy ===
/**
  The mobile account details view (`MobileAccountDetails.js`): the rows
  it lists (schedule previews ahead of the fetched transactions), whether
  rows show their category, and the search input.
 */
module AccountDetails {
  import opened Wrappers
  import opened Transactions
  import Seqs
  import DateSections
  import AccountView
  import AccountsPage

  /** `allTransactions`: the previews followed by the fetched transactions. */
  function AllTransactions(previews: seq<Transaction>, transactions: seq<Transaction>): (r: seq<Transaction>)
    ensures |r| == |previews| + |transactions|
    ensures r[..|previews|] == previews && r[|previews|..] == transactions
  {
    previews + transactions
  }

  /**
    The listed rows, once grouped by date: all the previews come first, then
    the fetched transactions that are not split children, each part in its
    own order. The rows are described before flagging: the rendered sections
    are `Flagged` of this grouping (what `DateSections.MakeData` returns),
    whose rows differ from these only in `isLast`
    (`DateSections.FlaggedPlacement`).
   */
  lemma ListedRows(data: AccountView.ScheduleData, transactions: seq<Transaction>)
    ensures var previews := AccountView.PreviewTransactions(Some(data)).value;
            DateSections.Flatten(DateSections.Group(AllTransactions(previews, transactions)))
            == previews + DateSections.TopLevel(transactions)
  {
    var previews := AccountView.PreviewTransactions(Some(data)).value;
    DateSections.GroupFlatten(previews + transactions);
    Seqs.FilterConcat(previews, transactions, DateSections.IsTopLevel);
    Seqs.FilterAll(previews, DateSections.IsTopLevel);
  }

  /** `showCategory={!account.offbudget}`: only an account whose flag is 0 shows categories. */
  function ShowCategory(account: Account): (r: bool)
    ensures r <==> account.offbudget == 0
  {
    // `!offbudget` is true only for the falsy flag 0.
    account.offbudget == 0
  }

  /**
    Categories are shown exactly for the accounts the accounts page lists
    as budgeted: an open account is on the page, and it is in the budgeted
    list exactly when its screen shows categories.
   */
  lemma ShowCategoryMatchesBudgeted(accounts: seq<Account>, a: Account)
    requires a in accounts && !a.closed
    ensures AccountsPage.AccountsPage(accounts).Lists?
    ensures ShowCategory(a) <==> a in AccountsPage.AccountsPage(accounts).budgeted
  {
    var visible := AccountsPage.VisibleAccounts(accounts);
    assert a in visible;
    AccountsPage.PartitionMembership(visible, a);
  }

  /** The search input's own state: the text typed so far. */
  datatype SearchInput = SearchInput(text: string)

  /**
    `TransactionSearchInput.onChange(text)`: the text is stored and then the
    stored text, the full current text, is forwarded to `onSearch`.
   */
  function OnSearchInputChange(input: SearchInput, text: string): (r: (SearchInput, string))
    ensures r.0.text == text
    ensures r.1 == text
  {
    var next := input.(text := text);
    (next, next.text)
  }

  /**
    A keystroke in the search input searches for the whole text now in the
    input: the screen's `onSearch` receives it and installs a search for it,
    or the account's query when the input is empty.
   */
  lemma SearchInputDrivesQuery(input: SearchInput, text: string, s: AccountView.Screen, dateFormat: string)
    requires AccountView.SlotInvariant(s.slot) && s.slot.current.Some?
    ensures var (next, forwarded) := OnSearchInputChange(input, text);
            var r := AccountView.OnSearch(s, forwarded, dateFormat).value;
            r.filter == next.text
            && r.slot.current.value.query == AccountView.QueryFor(next.text, s.currentQuery, dateFormat)
  {
  }
}

=== FILE: account_view.dfy ===
/**
  The mobile account screen's control logic (`MobileAccount.js`): preview
  rows built from scheduled payments, the schedule query, the single
  paged-cursor slot, the reaction to sync events, and the query chosen
  when the search text changes.
 */
module AccountView {
  import opened Wrappers
  import opened Transactions
  import Seqs
  import TransactionDisplay

  /** A schedule as the schedules provider delivers it. */
  datatype Schedule = Schedule(id: string, completed: bool, payee: Option<string>,
                               account: Option<string>, amount: int, nextDate: string)

  /** The cached schedules and each schedule's status by id. */
  datatype ScheduleData = ScheduleData(schedules: seq<Schedule>, statuses: map<string, string>)

  /** A schedule is shown as a preview when it is not completed and is due, upcoming or missed. */
  function Previewable(data: ScheduleData): Schedule -> bool
  {
    (s: Schedule) => !s.completed && s.id in data.statuses && data.statuses[s.id] in ["due", "upcoming", "missed"]
  }

  /** The preview row for a schedule: a synthetic, never-saved transaction carrying its status as notes. */
  function PreviewOf(s: Schedule, status: string): (t: Transaction)
    ensures t.id == TransactionDisplay.PreviewMarker + s.id && TransactionDisplay.IsPreviewId(t.id)
    ensures t.payee == s.payee && t.account == s.account && t.amount == s.amount && t.date == s.nextDate
    ensures !t.isChild && t.schedule == Some(s.id) && t.notes == Some(status)
  {
    TransactionDisplay.PreviewPrefixIsPreview(s.id);
    Transaction(TransactionDisplay.PreviewMarker + s.id, s.account, s.payee, None, s.amount,
                s.nextDate, Some(status), false, false, Some(s.id), false)
  }

  /** The schedules that become previews, in their order. */
  function Kept(data: ScheduleData): seq<Schedule> {
    Seqs.Filter(data.schedules, Previewable(data))
  }

  /**
    `PreviewTransactions`: with no schedule data yet, `null` rather than a
    list; otherwise one preview per shown schedule, in schedule order.
   */
  function PreviewTransactions(data: Option<ScheduleData>): (r: Option<seq<Transaction>>)
    ensures r.None? <==> data.None?
    ensures data.Some? ==> |r.value| == |Kept(data.value)|
    ensures data.Some? ==> forall i :: 0 <= i < |r.value| ==>
              var s := Kept(data.value)[i];
              Previewable(data.value)(s) && r.value[i] == PreviewOf(s, data.value.statuses[s.id])
    ensures data.Some? ==> forall i :: 0 <= i < |r.value| ==>
              TransactionDisplay.IsPreviewId(r.value[i].id) && !r.value[i].isChild
  {
    if data.None? then None
    else
      var d := data.value;
      var kept := Kept(d);
      Some(seq(|kept|, i requires 0 <= i < |kept| => PreviewOf(kept[i], d.statuses[kept[i].id])))
  }

  /** Every shown schedule, and only those, gives a preview, and the previews follow schedule order. */
  lemma PreviewsFollowSchedules(d: ScheduleData, a: seq<Schedule>, b: seq<Schedule>)
    requires d.schedules == a + b
    ensures Kept(d) == Seqs.Filter(a, Previewable(d)) + Seqs.Filter(b, Previewable(d))
    ensures forall j :: 0 <= j < |d.schedules| && Previewable(d)(d.schedules[j]) ==> d.schedules[j] in Kept(d)
  {
    Seqs.FilterConcat(a, b, Previewable(d));
  }

  /** The schedule filter: an account's schedules, or none at all (`{id: null}`) while searching. */
  datatype ScheduleFilter = ForAccount(accountId: Option<string>) | NoSchedules

  /** The query the schedules provider runs. */
  datatype ScheduleQuery = ScheduleQuery(filter: ScheduleFilter, excludeClosedAccounts: bool,
                                         orderBy: string, descending: bool)

  /**
    `getSchedulesTransform(id, hasSearch)`: schedules are never shown while
    a search is active; schedules of closed accounts never are; the newest
    next date comes first.
   */
  function SchedulesTransform(accountId: Option<string>, hasSearch: bool): (r: ScheduleQuery)
    ensures hasSearch <==> r.filter == NoSchedules
    ensures !hasSearch ==> r.filter == ForAccount(accountId)
    ensures r.excludeClosedAccounts && r.orderBy == "next_date" && r.descending
  {
    var filter := if hasSearch then NoSchedules else ForAccount(accountId);
    ScheduleQuery(filter, true, "next_date", true)
  }

  /** The transaction queries the screen runs: the account's own, or a search over another. */
  datatype Query = RootQuery(accountId: Option<string>) | SearchQuery(base: Query, text: string, dateFormat: string)

  /** The page size of the transaction cursor. */
  const PageCount: nat := 150

  /** A paged cursor: its query (with split transactions grouped), page size, and whether it is subscribed. */
  datatype Cursor = Cursor(query: Query, pageCount: nat, live: bool)

  /**
    The module-level `paged` binding: the current cursor, if any, and the
    cursors it held before, which callers have unsubscribed.
   */
  datatype CursorSlot = CursorSlot(current: Option<Cursor>, retired: seq<Cursor>)

  /** Every cursor the slot ever held, current one last. */
  function AllCursors(slot: CursorSlot): seq<Cursor> {
    slot.retired + (if slot.current.Some? then [slot.current.value] else [])
  }

  /** The number of subscribed cursors. */
  function LiveCount(cs: seq<Cursor>): nat
  {
    if |cs| == 0 then 0 else LiveCount(cs[..|cs| - 1]) + (if cs[|cs| - 1].live then 1 else 0)
  }

  lemma {:induction false} LiveCountNone(cs: seq<Cursor>)
    requires forall i :: 0 <= i < |cs| ==> !cs[i].live
    ensures LiveCount(cs) == 0
  {
    if |cs| > 0 {
      LiveCountNone(cs[..|cs| - 1]);
    }
  }

  /** Only the current cursor may be subscribed. */
  ghost predicate SlotInvariant(slot: CursorSlot) {
    forall i :: 0 <= i < |slot.retired| ==> !slot.retired[i].live
  }

  /**
    `updateQuery(query)`: the old cursor, if any, is unsubscribed before a
    new one over `query` with pages of 150 takes the slot, so afterwards
    exactly one cursor is subscribed.
   */
  function UpdateQuery(slot: CursorSlot, query: Query): (r: CursorSlot)
    requires SlotInvariant(slot)
    ensures SlotInvariant(r)
    ensures r.current == Some(Cursor(query, PageCount, true))
    ensures LiveCount(AllCursors(r)) == 1
    ensures |AllCursors(r)| == |AllCursors(slot)| + 1
  {
    var retired := if slot.current.Some? then slot.retired + [slot.current.value.(live := false)] else slot.retired;
    var r := CursorSlot(Some(Cursor(query, PageCount, true)), retired);
    LiveCountNone(retired);
    assert AllCursors(r)[..|AllCursors(r)| - 1] == retired;
    r
  }

  /** With the invariant, at most one cursor is subscribed at any time. */
  lemma {:induction false} AtMostOneLive(slot: CursorSlot)
    requires SlotInvariant(slot)
    ensures LiveCount(AllCursors(slot)) <= 1
  {
    LiveCountNone(slot.retired);
    if slot.current.Some? {
      assert AllCursors(slot)[..|AllCursors(slot)| - 1] == slot.retired;
    } else {
      assert AllCursors(slot) == slot.retired;
    }
  }

  /** `paged.unsubscribe()` as `onSearch` calls it: with no cursor yet the call throws (None). */
  function Unsubscribe(slot: CursorSlot): (r: Option<CursorSlot>)
    requires SlotInvariant(slot)
    ensures r.Some? <==> slot.current.Some?
    ensures r.Some? ==> SlotInvariant(r.value) && LiveCount(AllCursors(r.value)) == 0
  {
    if slot.current.None? then None
    else
      var r := slot.(current := Some(slot.current.value.(live := false)));
      LiveCountNone(AllCursors(r));
      Some(r)
  }

  /** What a sync event makes the screen do. */
  datatype SyncReaction = SyncReaction(rerunCursor: bool, refetchPayees: bool)

  /**
    The `sync-event` listener: only `applied` events act; the cursor (when
    there is one) re-runs when transactions or category/payee mappings
    changed, and payees are refetched when payees or payee mappings changed.
   */
  function OnSyncEvent(slot: CursorSlot, eventType: string, tables: seq<string>): (r: SyncReaction)
    ensures eventType != "applied" ==> r == SyncReaction(false, false)
    ensures r.rerunCursor <==>
              (eventType == "applied" && slot.current.Some? &&
               ("transactions" in tables || "category_mapping" in tables || "payee_mapping" in tables))
    ensures r.refetchPayees <==> (eventType == "applied" && ("payees" in tables || "payee_mapping" in tables))
  {
    if eventType == "applied" then
      var rerun := Seqs.Includes(tables, "transactions") || Seqs.Includes(tables, "category_mapping")
                   || Seqs.Includes(tables, "payee_mapping");
      var payees := Seqs.Includes(tables, "payees") || Seqs.Includes(tables, "payee_mapping");
      SyncReaction(rerun && slot.current.Some?, payees)
    else SyncReaction(false, false)
  }

  /**
    The listener looks at the tables only through membership, so an event
    naming `t1 + t2` does exactly what the events naming `t1` and `t2` do
    together.
   */
  lemma SyncEventSplits(slot: CursorSlot, eventType: string, t1: seq<string>, t2: seq<string>)
    ensures var a, b := OnSyncEvent(slot, eventType, t1), OnSyncEvent(slot, eventType, t2);
            OnSyncEvent(slot, eventType, t1 + t2) == SyncReaction(a.rerunCursor || b.rerunCursor,
                                                                  a.refetchPayees || b.refetchPayees)
  {
  }

  /** A change to payee mappings alone both re-runs the cursor and refetches payees. */
  lemma PayeeMappingTriggersBoth(slot: CursorSlot)
    requires slot.current.Some?
    ensures OnSyncEvent(slot, "applied", ["payee_mapping"]) == SyncReaction(true, true)
  {
  }

  /** `onLoadMore`: `paged && paged.fetchNext()` - a next page is requested only when there is a cursor. */
  function OnLoadMore(slot: CursorSlot): (fetchNext: bool)
    ensures fetchNext <==> slot.current.Some?
  {
    slot.current.Some?
  }

  /**
    `onSearchDone`'s choice of query: an empty filter goes back to the
    account's query; any other builds a search over it.
   */
  function QueryFor(filter: string, currentQuery: Query, dateFormat: string): (r: Query)
    ensures r == currentQuery <==> filter == ""
    ensures filter != "" ==> r == SearchQuery(currentQuery, filter, dateFormat)
  {
    if filter == "" then currentQuery else SearchQuery(currentQuery, filter, dateFormat)
  }

  /** The state the account screen keeps: the search text, the account's query and the cursor slot. */
  datatype Screen = Screen(filter: string, currentQuery: Query, slot: CursorSlot)

  /** `fetchTransactions`: the account's query becomes current and the cursor runs over it. */
  function FetchTransactions(s: Screen, accountId: Option<string>): (r: Screen)
    requires SlotInvariant(s.slot)
    ensures r.currentQuery == RootQuery(accountId)
    ensures r.slot.current == Some(Cursor(RootQuery(accountId), PageCount, true))
    ensures SlotInvariant(r.slot) && LiveCount(AllCursors(r.slot)) == 1
  {
    var query := RootQuery(accountId);
    Screen(s.filter, query, UpdateQuery(s.slot, query))
  }

  /**
    `onSearch(text)` as written: it unsubscribes, stores the text, and runs
    the `onSearchDone` of the same render, whose `filter` is the value from
    before the text was stored. The query it installs is therefore chosen
    from the previous text.
   */
  function OnSearchAsWritten(s: Screen, text: string, dateFormat: string): (r: Option<Screen>)
    requires SlotInvariant(s.slot)
    ensures r.Some? <==> s.slot.current.Some?
    ensures r.Some? ==> r.value.filter == text
    ensures r.Some? ==> r.value.slot.current == Some(Cursor(QueryFor(s.filter, s.currentQuery, dateFormat), PageCount, true))
  {
    var unsubscribed := Unsubscribe(s.slot);
    if unsubscribed.None? then None
    else
      var staleFilter := s.filter;
      Some(Screen(text, s.currentQuery, UpdateQuery(unsubscribed.value, QueryFor(staleFilter, s.currentQuery, dateFormat))))
  }

  /** The first keystroke of a search re-runs the plain account query instead of searching. */
  lemma StaleSearchFilter(s: Screen, dateFormat: string)
    requires SlotInvariant(s.slot) && s.slot.current.Some? && s.filter == ""
    ensures var r := OnSearchAsWritten(s, "rent", dateFormat);
            r.Some? && r.value.filter == "rent" && r.value.slot.current.value.query == s.currentQuery
  {
  }

  /**
    `onSearch(text)` with the text it was given: the installed query is a
    search for `text` over the account's query, or the account's query when
    the text is empty, and only the new cursor is subscribed.
   */
  function OnSearch(s: Screen, text: string, dateFormat: string): (r: Option<Screen>)
    requires SlotInvariant(s.slot)
    ensures r.Some? <==> s.slot.current.Some?
    ensures r.Some? ==> r.value.filter == text && r.value.currentQuery == s.currentQuery
    ensures r.Some? ==> r.value.slot.current == Some(Cursor(QueryFor(text, s.currentQuery, dateFormat), PageCount, true))
    ensures r.Some? ==> (r.value.slot.current.value.query == s.currentQuery <==> text == "")
    ensures r.Some? ==> SlotInvariant(r.value.slot) && LiveCount(AllCursors(r.value.slot)) == 1
  {
    var unsubscribed := Unsubscribe(s.slot);
    if unsubscribed.None? then None
    else Some(Screen(text, s.currentQuery, UpdateQuery(unsubscribed.value, QueryFor(text, s.currentQuery, dateFormat))))
  }

  /** With the text it was given, the first keystroke searches. */
  lemma SearchUsesNewText(s: Screen, dateFormat: string)
    requires SlotInvariant(s.slot) && s.slot.current.Some?
    ensures var r := OnSearch(s, "rent", dateFormat);
            r.Some? && r.value.slot.current.value.query == SearchQuery(s.currentQuery, "rent", dateFormat)
  {
  }

  /**
    With the text it was given, the schedules provider (which reads the
    stored filter) hides the schedules exactly when the installed query is a
    search, so previews never sit beside search results.
   */
  lemma SchedulesHiddenExactlyWhenSearching(s: Screen, text: string, dateFormat: string, accountId: Option<string>)
    requires SlotInvariant(s.slot) && s.slot.current.Some?
    ensures var r := OnSearch(s, text, dateFormat).value;
            SchedulesTransform(accountId, r.filter != "").filter == NoSchedules
            <==> r.slot.current.value.query != r.currentQuery
  {
  }

  /**
    As written, the first keystroke of a search already hides the schedules,
    while the installed query is still the plain account query.
   */
  lemma StaleSearchHidesSchedules(s: Screen, text: string, dateFormat: string, accountId: Option<string>)
    requires SlotInvariant(s.slot) && s.slot.current.Some? && s.filter == "" && text != ""
    ensures var r := OnSearchAsWritten(s, text, dateFormat).value;
            SchedulesTransform(accountId, r.filter != "").filter == NoSchedules
            && r.slot.current.value.query == s.currentQuery
  {
  }

  /**
    Every preview row renders its schedule's status on a coloured status
    line: a previewed schedule is due, upcoming or missed, and each of those
    has a colour.
   */
  lemma PreviewStatusColored(data: ScheduleData, i: int, description: string)
    requires 0 <= i < |PreviewTransactions(Some(data)).value|
    ensures var t := PreviewTransactions(Some(data)).value[i];
            var style := TransactionDisplay.RowColors(t.id, t.notes, t.schedule, description);
            style.statusLine.Some? && style.statusLine.value.Some?
  {
    var t := PreviewTransactions(Some(data)).value[i];
    var sch := Kept(data)[i];
    assert Previewable(data)(sch) && t == PreviewOf(sch, data.statuses[sch.id]);
  }
}

=== FILE: accounts.dfy ===
/**
  The mobile accounts page (`MobileAccounts.js`): closed accounts are
  dropped, the rest are split into budgeted and off-budget lists, an empty
  list shows the "add an account" message, and selecting an account
  navigates to it by id and name.
 */
module AccountsPage {
  import opened Wrappers
  import opened Transactions
  import Seqs

  predicate IsOpen(a: Account) { !a.closed }
  predicate IsOnBudget(a: Account) { a.offbudget == 0 }
  predicate IsOffBudget(a: Account) { a.offbudget == 1 }

  /** What `AccountList` shows. */
  datatype AccountListView = EmptyMessage | Lists(budgeted: seq<Account>, offBudget: seq<Account>)

  /**
    `AccountList`: with no accounts, the empty message; otherwise the
    accounts whose `offbudget` is exactly 0 under "Budgeted" and exactly 1
    under "Off budget", each in list order. Any other flag value shows in
    neither list.
   */
  function AccountList(accounts: seq<Account>): (r: AccountListView)
    ensures r.EmptyMessage? <==> |accounts| == 0
    ensures r.Lists? ==> r.budgeted == Seqs.Filter(accounts, IsOnBudget)
    ensures r.Lists? ==> r.offBudget == Seqs.Filter(accounts, IsOffBudget)
  {
    var budgeted := Seqs.Filter(accounts, IsOnBudget);
    var offBudget := Seqs.Filter(accounts, IsOffBudget);
    if |accounts| == 0 then EmptyMessage else Lists(budgeted, offBudget)
  }

  predicate IsOther(a: Account) { a.offbudget != 0 && a.offbudget != 1 }

  /**
    The two lists and the accounts left out of both account for every
    account exactly once.
   */
  lemma {:induction false} PartitionSizes(accounts: seq<Account>)
    ensures |Seqs.Filter(accounts, IsOnBudget)| + |Seqs.Filter(accounts, IsOffBudget)|
            + |Seqs.Filter(accounts, IsOther)| == |accounts|
  {
    if |accounts| > 0 {
      PartitionSizes(accounts[1..]);
    }
  }

  /** An account lands in the budgeted list, the off-budget list, or neither - never both. */
  lemma PartitionMembership(accounts: seq<Account>, a: Account)
    requires a in accounts
    ensures a in Seqs.Filter(accounts, IsOnBudget) <==> a.offbudget == 0
    ensures a in Seqs.Filter(accounts, IsOffBudget) <==> a.offbudget == 1
  {
    var i :| 0 <= i < |accounts| && accounts[i] == a;
  }

  /** The accounts the page hands to `AccountList`: the open ones, in order. */
  function VisibleAccounts(accounts: seq<Account>): (r: seq<Account>)
    ensures forall i :: 0 <= i < |r| ==> !r[i].closed
    ensures forall i :: 0 <= i < |accounts| && !accounts[i].closed ==> accounts[i] in r
  {
    Seqs.Filter(accounts, IsOpen)
  }

  /** The page as rendered: the account lists of the open accounts only. */
  function AccountsPage(accounts: seq<Account>): (r: AccountListView)
    ensures r.EmptyMessage? <==> forall i :: 0 <= i < |accounts| ==> accounts[i].closed
    ensures r.Lists? ==> forall i :: 0 <= i < |r.budgeted| ==> !r.budgeted[i].closed && r.budgeted[i] in accounts
    ensures r.Lists? ==> forall i :: 0 <= i < |r.offBudget| ==> !r.offBudget[i].closed && r.offBudget[i] in accounts
    ensures r.Lists? ==> r.budgeted == Seqs.Filter(VisibleAccounts(accounts), IsOnBudget)
    ensures r.Lists? ==> r.offBudget == Seqs.Filter(VisibleAccounts(accounts), IsOffBudget)
  {
    var visible := VisibleAccounts(accounts);
    AccountList(visible)
  }

  /** `isNewTransaction(id)`: the id is among the newly imported transactions. */
  function IsNewTransaction(newTransactions: seq<string>, id: string): (r: bool)
    ensures r <==> exists i :: 0 <= i < |newTransactions| && newTransactions[i] == id
  {
    Seqs.Includes(newTransactions, id)
  }

  /** Where selecting an account goes: the account screen, titled with the account's name. */
  datatype Navigation = ToAccount(id: string, title: string)

  predicate HasId(id: string, a: Account) { a.id == id }

  /**
    `onSelectAccount(id)`: navigates with the id and the name of the first
    account with that id. With no such account the source throws reading
    `name` of `undefined`; here that is None.
   */
  function OnSelectAccount(accounts: seq<Account>, id: string): (r: Option<Navigation>)
    ensures r.None? <==> forall i :: 0 <= i < |accounts| ==> accounts[i].id != id
    ensures r.Some? ==> r.value.id == id
    ensures r.Some? ==> exists i :: 0 <= i < |accounts| && accounts[i].id == id && accounts[i].name == r.value.title
                                    && forall j :: 0 <= j < i ==> accounts[j].id != id
  {
    var account := Seqs.Find(accounts, a => HasId(id, a));
    if account.Some? then Some(ToAccount(id, account.value.name)) else None
  }

  /**
    Any account the page lists can be selected: selecting it navigates to
    its id, titled with its own name when no other account shares the id.
   */
  lemma SelectListedAccount(accounts: seq<Account>, a: Account)
    requires AccountsPage(accounts).Lists?
    requires a in AccountsPage(accounts).budgeted || a in AccountsPage(accounts).offBudget
    ensures OnSelectAccount(accounts, a.id).Some?
    ensures OnSelectAccount(accounts, a.id).value.id == a.id
    ensures (forall i :: 0 <= i < |accounts| && accounts[i].id == a.id ==> accounts[i] == a) ==>
              OnSelectAccount(accounts, a.id) == Some(ToAccount(a.id, a.name))
  {
    assert a in accounts;
  }
}

=== FILE: date_sections.dfy ===
/**
  The transaction list's grouping of an already ordered list of rows into
  date sections (`TransactionList.makeData`, identical in the mobile and
  desktop transaction files).

  One pass: a section opens whenever a row's date differs from the date of
  the section opened last; child rows open sections like any other row
  but are not added to them; when a section is closed off by a new one,
  the trailing row of the closed section (if it has any) gets `isLast`.
  The final section is never closed, so its trailing row is never flagged.
 */
module DateSections {
  import opened Wrappers
  import opened Transactions
  import Seqs

  /** A section: keyed and labelled by its date, with the rows under it. */
  datatype Section = Section(id: string, date: string, data: seq<Transaction>)

  predicate IsTopLevel(t: Transaction) { !t.isChild }

  /** The rows the grouping keeps: every non-child row, in input order. */
  function TopLevel(ts: seq<Transaction>): seq<Transaction> {
    Seqs.Filter(ts, IsTopLevel)
  }

  /** All section rows, section after section. */
  function Flatten(ss: seq<Section>): seq<Transaction>
  {
    if |ss| == 0 then [] else Flatten(ss[..|ss| - 1]) + ss[|ss| - 1].data
  }

  /** The section dates, in order. */
  function Dates(ss: seq<Section>): (r: seq<string>)
    ensures |r| == |ss|
  {
    seq(|ss|, k requires 0 <= k < |ss| => ss[k].date)
  }

  /**
    The dates at which a run of equal dates starts in the input: the first
    row's date and each date that differs from the row before it.
   */
  function RunDates(ts: seq<Transaction>): (r: seq<string>)
    ensures |ts| > 0 <==> |r| > 0
    ensures |ts| > 0 ==> r[|r| - 1] == ts[|ts| - 1].date
    ensures forall k :: 0 <= k < |r| - 1 ==> r[k] != r[k + 1]
  {
    if |ts| == 0 then []
    else if |ts| == 1 || ts[|ts| - 1].date != ts[|ts| - 2].date then
      RunDates(ts[..|ts| - 1]) + [ts[|ts| - 1].date]
    else RunDates(ts[..|ts| - 1])
  }

  /** Adds a row to the end of the last section. */
  function AppendToLast(ss: seq<Section>, t: Transaction): (r: seq<Section>)
    requires |ss| > 0
    ensures |r| == |ss| && r[..|r| - 1] == ss[..|ss| - 1]
  {
    var last := ss[|ss| - 1];
    ss[..|ss| - 1] + [last.(data := last.data + [t])]
  }

  /** Opens a section for `t` unless the last section already has `t`'s date. */
  function OpenFor(prev: seq<Section>, t: Transaction): (r: seq<Section>)
    ensures |r| > 0 && r[|r| - 1].date == t.date
    ensures r == prev || r == prev + [Section(t.date, t.date, [])]
  {
    if |prev| == 0 || t.date != prev[|prev| - 1].date
    then prev + [Section(t.date, t.date, [])]
    else prev
  }

  /** One row's worth of grouping, flags aside: open if needed, then add a non-child row. */
  function Step(prev: seq<Section>, t: Transaction): (r: seq<Section>)
    ensures |r| > 0 && r[|r| - 1].date == t.date
  {
    var withNew := OpenFor(prev, t);
    if t.isChild then withNew else AppendToLast(withNew, t)
  }

  /**
    The sections before any row is flagged: the grouping of the rows
    processed from first to last.
   */
  function Group(ts: seq<Transaction>): (r: seq<Section>)
    ensures |ts| > 0 ==> |r| > 0 && r[|r| - 1].date == ts[|ts| - 1].date
  {
    if |ts| == 0 then [] else Step(Group(ts[..|ts| - 1]), ts[|ts| - 1])
  }

  /** The row as the grouping leaves it once its section has been closed. */
  function MarkLast(t: Transaction): Transaction { t.(isLast := true) }

  /** Flags the trailing row of a section that has rows. */
  function MarkSection(s: Section): (r: Section)
    ensures r.id == s.id && r.date == s.date && |r.data| == |s.data|
  {
    if |s.data| == 0 then s
    else s.(data := s.data[..|s.data| - 1] + [MarkLast(s.data[|s.data| - 1])])
  }

  /** Every section but the final one has been closed and so flagged. */
  function Flagged(ss: seq<Section>): (r: seq<Section>)
    ensures |r| == |ss|
  {
    seq(|ss|, k requires 0 <= k < |ss| => if k < |ss| - 1 then MarkSection(ss[k]) else ss[k])
  }

  /** The flag step the loop takes when it opens a new section. */
  function CloseLast(ss: seq<Section>): (r: seq<Section>)
    ensures |r| == |ss|
  {
    if |ss| > 0 && |ss[|ss| - 1].data| > 0
    then ss[..|ss| - 1] + [MarkSection(ss[|ss| - 1])]
    else ss
  }

  /** The final section is never flagged. */
  lemma FlaggedLast(g: seq<Section>)
    ensures |g| > 0 ==> Flagged(g)[|g| - 1] == g[|g| - 1]
  {
  }

  lemma FlaggedOpen(g: seq<Section>, s: Section)
    ensures Flagged(g + [s]) == CloseLast(Flagged(g)) + [s]
  {
    var lhs := Flagged(g + [s]);
    var rhs := CloseLast(Flagged(g)) + [s];
    forall k | 0 <= k < |lhs|
      ensures lhs[k] == rhs[k]
    {
      if k < |g| - 1 {
        assert lhs[k] == MarkSection(g[k]);
      } else if k == |g| - 1 {
        assert lhs[k] == MarkSection(g[k]);
        assert Flagged(g)[k] == g[k];
      }
    }
  }

  lemma FlaggedAppend(g: seq<Section>, t: Transaction)
    requires |g| > 0
    ensures Flagged(AppendToLast(g, t)) == AppendToLast(Flagged(g), t)
  {
    var lhs := Flagged(AppendToLast(g, t));
    var rhs := AppendToLast(Flagged(g), t);
    forall k | 0 <= k < |lhs|
      ensures lhs[k] == rhs[k]
    {
      if k < |g| - 1 {
        assert AppendToLast(g, t)[k] == g[k];
      }
    }
  }

  /**
    One iteration of `makeData`'s `forEach`: when the row's date differs
    from the last section's, the trailing row of that section is flagged and
    a section for the new date is pushed; a non-child row is then pushed onto
    the last section. Applied to the flagged grouping of the rows so far, it
    gives the flagged grouping with this row added.
   */
  method AddRow(sections: seq<Section>, t: Transaction, ghost g: seq<Section>) returns (next: seq<Section>)
    requires sections == Flagged(g)
    ensures next == Flagged(Step(g, t))
  {
    next := sections;
    ghost var cur := g;
    FlaggedLast(g);
    if |next| == 0 || t.date != next[|next| - 1].date {
      // Mark the trailing row of the section being closed off.
      if |next| > 0 && |next[|next| - 1].data| > 0 {
        next := next[..|next| - 1] + [MarkSection(next[|next| - 1])];
      }
      assert next == CloseLast(Flagged(g));
      next := next + [Section(t.date, t.date, [])];
      FlaggedOpen(g, Section(t.date, t.date, []));
      cur := g + [Section(t.date, t.date, [])];
    }
    assert cur == OpenFor(g, t) && next == Flagged(cur);
    if !t.isChild {
      FlaggedAppend(cur, t);
      next := AppendToLast(next, t);
    }
  }

  /**
    `makeData(transactions)`, one pass as in the source. The sections it
    returns are the grouping of the input with every section but the
    final one flagged.
   */
  method MakeData(ts: seq<Transaction>) returns (sections: seq<Section>)
    ensures sections == Flagged(Group(ts))
  {
    sections := [];
    for i := 0 to |ts|
      invariant sections == Flagged(Group(ts[..i]))
    {
      Seqs.TakeSnoc(ts, i);
      GroupSnoc(ts[..i], ts[i]);
      sections := AddRow(sections, ts[i], Group(ts[..i]));
    }
    assert ts[..|ts|] == ts;
  }

  lemma FlattenSnoc(ss: seq<Section>, s: Section)
    ensures Flatten(ss + [s]) == Flatten(ss) + s.data
  {
    assert (ss + [s])[..|ss|] == ss;
  }

  lemma FlattenAppendToLast(ss: seq<Section>, t: Transaction)
    requires |ss| > 0
    ensures Flatten(AppendToLast(ss, t)) == Flatten(ss) + [t]
  {
    var init, last := ss[..|ss| - 1], ss[|ss| - 1];
    var grown := last.(data := last.data + [t]);
    Seqs.SplitLast(ss);
    FlattenSnoc(init, last);
    FlattenSnoc(init, grown);
    var appended := AppendToLast(ss, t);
    assert appended == init + [grown];
    assert Flatten(appended) == Flatten(init) + (last.data + [t]);
    assert Flatten(ss) == Flatten(init) + last.data;
    Seqs.AppendAssoc(Flatten(init), last.data, [t]);
  }

  lemma FlattenOpen(ss: seq<Section>, d: string)
    ensures Flatten(ss + [Section(d, d, [])]) == Flatten(ss)
  {
    FlattenSnoc(ss, Section(d, d, []));
  }

  lemma StepFlatten(prev: seq<Section>, t: Transaction)
    ensures Flatten(Step(prev, t)) == Flatten(prev) + TopLevel([t])
  {
    var withNew := OpenFor(prev, t);
    if withNew != prev {
      FlattenOpen(prev, t.date);
    }
    if !t.isChild {
      FlattenAppendToLast(withNew, t);
    }
  }

  /** Concatenating the sections' rows gives the non-child input rows, in order. */
  lemma {:induction false} GroupFlatten(ts: seq<Transaction>)
    ensures Flatten(Group(ts)) == TopLevel(ts)
  {
    if |ts| > 0 {
      var t := ts[|ts| - 1];
      var prefix := ts[..|ts| - 1];
      GroupFlatten(prefix);
      Seqs.SplitLast(ts);
      Seqs.FilterConcat(prefix, [t], IsTopLevel);
      StepFlatten(Group(prefix), t);
    }
  }

  lemma StepDates(prev: seq<Section>, t: Transaction)
    ensures Dates(Step(prev, t)) == Dates(prev) + (if |prev| == 0 || t.date != prev[|prev| - 1].date then [t.date] else [])
  {
    var withNew := OpenFor(prev, t);
    if !t.isChild {
      var r := AppendToLast(withNew, t);
      forall k | 0 <= k < |r|
        ensures r[k].date == withNew[k].date
      {
        if k < |r| - 1 {
          assert r[k] == r[..|r| - 1][k];
        }
      }
    }
  }

  /**
    A section opens exactly where the input's date changes: the section
    dates are the dates at which runs start, so equal dates that are not
    adjacent give separate sections, and neighbouring sections never share
    a date.
   */
  lemma {:induction false} GroupDates(ts: seq<Transaction>)
    ensures Dates(Group(ts)) == RunDates(ts)
  {
    if |ts| > 0 {
      var t := ts[|ts| - 1];
      var prefix := ts[..|ts| - 1];
      GroupDates(prefix);
      StepDates(Group(prefix), t);
    }
  }

  /** The section is keyed by its date and holds only non-child rows of that date. */
  ghost predicate SectionWellDated(s: Section) {
    s.id == s.date && forall j :: 0 <= j < |s.data| ==> s.data[j].date == s.date && !s.data[j].isChild
  }

  ghost predicate WellDated(g: seq<Section>) {
    forall k :: 0 <= k < |g| ==> SectionWellDated(g[k])
  }

  lemma StepWellDated(prev: seq<Section>, t: Transaction)
    requires WellDated(prev)
    ensures WellDated(Step(prev, t))
  {
    var withNew := OpenFor(prev, t);
    assert SectionWellDated(Section(t.date, t.date, []));
    assert WellDated(withNew);
    if !t.isChild {
      var last := withNew[|withNew| - 1];
      var grown := last.(data := last.data + [t]);
      assert SectionWellDated(grown);
      var r := AppendToLast(withNew, t);
      assert r == withNew[..|withNew| - 1] + [grown];
      forall k | 0 <= k < |r|
        ensures SectionWellDated(r[k])
      {
        if k < |r| - 1 {
          assert r[k] == withNew[k];
        }
      }
    }
  }

  /** Every section is keyed by its date and holds only non-child rows of that date. */
  lemma {:induction false} GroupWellDated(ts: seq<Transaction>)
    ensures WellDated(Group(ts))
  {
    if |ts| > 0 {
      GroupWellDated(ts[..|ts| - 1]);
      StepWellDated(Group(ts[..|ts| - 1]), ts[|ts| - 1]);
    }
  }

  /**
    Where the flags land: every section keeps its date and its number of
    rows; a row is changed only if it is the trailing row of a section that
    is followed by another, and then only by setting `isLast`; the final
    section comes back untouched.
   */
  lemma FlaggedPlacement(g: seq<Section>)
    ensures var f := Flagged(g);
      && (forall k :: 0 <= k < |g| ==> f[k].date == g[k].date && |f[k].data| == |g[k].data|)
      && (forall k, j :: 0 <= k < |g| && 0 <= j < |g[k].data| ==>
            f[k].data[j] == if k < |g| - 1 && j == |g[k].data| - 1 then MarkLast(g[k].data[j]) else g[k].data[j])
      && (|g| > 0 ==> f[|g| - 1] == g[|g| - 1])
  {
  }

  /** A row shows with the flag set exactly when it had it or closes a section that is followed by another. */
  lemma FlagSetExactly(g: seq<Section>, k: int, j: int)
    requires 0 <= k < |g| && 0 <= j < |g[k].data|
    ensures Flagged(g)[k].data[j].isLast <==> g[k].data[j].isLast || (k < |g| - 1 && j == |g[k].data| - 1)
  {
  }

  /** Grouping one more row is one more step. */
  lemma GroupSnoc(ts: seq<Transaction>, t: Transaction)
    ensures Group(ts + [t]) == Step(Group(ts), t)
  {
    assert (ts + [t])[..|ts|] == ts;
  }

  /** A non-child row whose date differs from the last section's opens a section holding just that row. */
  lemma StepNewDate(ss: seq<Section>, t: Transaction)
    requires !t.isChild && (|ss| == 0 || ss[|ss| - 1].date != t.date)
    ensures Step(ss, t) == ss + [Section(t.date, t.date, [t])]
  {
    var withNew := ss + [Section(t.date, t.date, [])];
    assert withNew[..|withNew| - 1] == ss;
    assert withNew[|withNew| - 1].data + [t] == [t];
  }

  /** A child row whose date differs from the last section's opens an empty section. */
  lemma StepChildNewDate(ss: seq<Section>, t: Transaction)
    requires t.isChild && (|ss| == 0 || ss[|ss| - 1].date != t.date)
    ensures Step(ss, t) == ss + [Section(t.date, t.date, [])]
  {
  }

  /** A non-child row with the date of the only section joins it. */
  lemma StepSameDate(s: Section, t: Transaction)
    requires !t.isChild && s.date == t.date
    ensures Step([s], t) == [s.(data := s.data + [t])]
  {
    assert OpenFor([s], t) == [s];
    assert [s][..0] + [s.(data := s.data + [t])] == [s.(data := s.data + [t])];
  }

  /** Grouping the first row of a list: one section, keyed by its date, holding it. */
  /** `GroupSnoc` with the grouping of the prefix already known. */
  lemma GroupSnocFrom(ts: seq<Transaction>, t: Transaction, g: seq<Section>)
    requires Group(ts) == g
    ensures Group(ts + [t]) == Step(g, t)
  {
    GroupSnoc(ts, t);
  }

  lemma GroupOne(a: Transaction)
    requires !a.isChild
    ensures Group([a]) == [Section(a.date, a.date, [a])]
  {
    calc {
      Group([a]);
      == { assert [a] == [] + [a]; }
      Group([] + [a]);
      == { GroupSnoc([], a); }
      Step([], a);
      == { StepNewDate([], a); }
      [] + [Section(a.date, a.date, [a])];
    }
  }

  /** With two sections, only the first is flagged. */
  lemma FlaggedPair(s1: Section, s2: Section)
    ensures Flagged([s1, s2]) == [MarkSection(s1), s2]
  {
  }

  /** Flagging a one-row section flags its row. */
  lemma MarkSectionOne(id: string, date: string, p: Transaction)
    ensures MarkSection(Section(id, date, [p])) == Section(id, date, [MarkLast(p)])
  {
    assert [p][..0] + [MarkLast(p)] == [MarkLast(p)];
  }

  /** Flagging a two-row section flags its second row only. */
  lemma MarkSectionTwo(id: string, date: string, a: Transaction, b: Transaction)
    ensures MarkSection(Section(id, date, [a, b])) == Section(id, date, [a, MarkLast(b)])
  {
    assert [a, b][..1] + [MarkLast(b)] == [a, MarkLast(b)];
  }

  /** Two non-child rows of one date: one section holding both. */
  lemma GroupSameDay(a: Transaction, b: Transaction)
    requires !a.isChild && !b.isChild && a.date == b.date
    ensures Group([a, b]) == [Section(a.date, a.date, [a, b])]
  {
    var sa := Section(a.date, a.date, [a]);
    calc {
      Group([a, b]);
      == { assert [a, b] == [a] + [b]; }
      Group([a] + [b]);
      == { GroupSnoc([a], b); }
      Step(Group([a]), b);
      == { GroupOne(a); }
      Step([sa], b);
      == { StepSameDate(sa, b); }
      [sa.(data := [a] + [b])];
      == { assert [a] + [b] == [a, b]; }
      [Section(a.date, a.date, [a, b])];
    }
  }

  /** Two rows of one date and a third of another: two sections. */
  lemma GroupSameDayThenNext(a: Transaction, b: Transaction, c: Transaction)
    requires !a.isChild && !b.isChild && !c.isChild
    requires a.date == b.date && b.date != c.date
    ensures Group([a, b, c]) == [Section(a.date, a.date, [a, b]), Section(c.date, c.date, [c])]
  {
    var sab := Section(a.date, a.date, [a, b]);
    calc {
      Group([a, b, c]);
      == { assert [a, b, c] == [a, b] + [c]; }
      Group([a, b] + [c]);
      == { GroupSnoc([a, b], c); }
      Step(Group([a, b]), c);
      == { GroupSameDay(a, b); }
      Step([sab], c);
      == { StepNewDate([sab], c); }
      [sab] + [Section(c.date, c.date, [c])];
    }
  }

  /**
    Two rows on one day followed by one on the next: two sections; the
    first day's second row is flagged, its first row is not, and the
    single row of the final section is not flagged either.
   */
  lemma ExampleTwoDays(a: Transaction, b: Transaction, c: Transaction)
    requires !a.isChild && !b.isChild && !c.isChild
    requires a.date == b.date && b.date != c.date
    ensures Flagged(Group([a, b, c])) == [Section(a.date, a.date, [a, MarkLast(b)]),
                                          Section(c.date, c.date, [c])]
  {
    var sab, sc := Section(a.date, a.date, [a, b]), Section(c.date, c.date, [c]);
    calc {
      Flagged(Group([a, b, c]));
      == { GroupSameDayThenNext(a, b, c); }
      Flagged([sab, sc]);
      == { FlaggedPair(sab, sc); }
      [MarkSection(sab), sc];
      == { MarkSectionTwo(a.date, a.date, a, b); }
      [Section(a.date, a.date, [a, MarkLast(b)]), sc];
    }
  }

  /** A row followed by a child of another date: the child opens an empty section. */
  lemma GroupThenChild(p: Transaction, c: Transaction)
    requires !p.isChild && c.isChild && p.date != c.date
    ensures Group([p, c]) == [Section(p.date, p.date, [p]), Section(c.date, c.date, [])]
  {
    var sp, sc := Section(p.date, p.date, [p]), Section(c.date, c.date, []);
    GroupOne(p);
    GroupSnocFrom([p], c, [sp]);
    StepChildNewDate([sp], c);
    assert [p] + [c] == [p, c];
    assert [sp] + [sc] == [sp, sc];
  }

  /**
    A date whose only row is a child still opens a (then empty) section, and
    that opening closes and flags the section before it.
   */
  lemma ExampleChildOnlyDate(p: Transaction, c: Transaction)
    requires !p.isChild && c.isChild && p.date != c.date
    ensures Flagged(Group([p, c])) == [Section(p.date, p.date, [MarkLast(p)]),
                                       Section(c.date, c.date, [])]
  {
    var sp, sc := Section(p.date, p.date, [p]), Section(c.date, c.date, []);
    calc {
      Flagged(Group([p, c]));
      == { GroupThenChild(p, c); }
      Flagged([sp, sc]);
      == { FlaggedPair(sp, sc); }
      [MarkSection(sp), sc];
      == { MarkSectionOne(p.date, p.date, p); }
      [Section(p.date, p.date, [MarkLast(p)]), sc];
    }
  }

  /** One more row adds its date to the run dates exactly when it starts a new run. */
  lemma RunDatesSnoc(ts: seq<Transaction>, t: Transaction)
    ensures RunDates(ts + [t]) == RunDates(ts) + (if |ts| == 0 || t.date != ts[|ts| - 1].date then [t.date] else [])
  {
    assert (ts + [t])[..|ts|] == ts;
  }

  lemma RunDatesOne(x: Transaction)
    ensures RunDates([x]) == [x.date]
  {
    assert [x][..0] == [];
  }

  lemma RunDatesTwo(x: Transaction, y: Transaction)
    requires x.date != y.date
    ensures RunDates([x, y]) == [x.date, y.date]
  {
    assert [x, y] == [x] + [y];
    RunDatesSnoc([x], y);
    RunDatesOne(x);
  }

  /** Run dates of three rows whose date changes and then comes back. */
  lemma RunDatesReturn(x: Transaction, y: Transaction, z: Transaction)
    requires x.date == z.date && x.date != y.date
    ensures RunDates([x, y, z]) == [x.date, y.date, x.date]
  {
    assert [x, y, z] == [x, y] + [z];
    RunDatesSnoc([x, y], z);
    RunDatesTwo(x, y);
  }

  /** The grouping does not sort: a date that comes back later opens a second section. */
  lemma ExampleDateReturns(x: Transaction, y: Transaction, z: Transaction)
    requires x.date == z.date && x.date != y.date
    ensures Dates(Group([x, y, z])) == [x.date, y.date, x.date]
  {
    GroupDates([x, y, z]);
    RunDatesReturn(x, y, z);
  }
}

=== FILE: display.dfy ===
/**
  How a transaction row and the edit form describe a transaction: the
  preview-id test, the payee / transfer description, the category label,
  the colours a row renders, the edit form's title and the sign forced
  on split children. The mobile and desktop transaction files carry the
  same code for all of these.
 */
module TransactionDisplay {
  import opened Wrappers
  import opened Transactions
  import Util

  /** `pat` occurs in `s` starting at index `i`. */
  predicate OccursAt(s: string, pat: string, i: int) {
    0 <= i && i + |pat| <= |s| && s[i..i + |pat|] == pat
  }

  /** Where `indexOf` starts looking: `from`, clamped to the string's length. */
  function StartOf(s: string, from: nat): nat {
    if from <= |s| then from else |s|
  }

  /**
    `s.indexOf(pat, from)`: the first occurrence at or after `from` (clamped
    to the length, so an empty pattern is found at the end), or -1.
   */
  function IndexOf(s: string, pat: string, from: nat): (r: int)
    ensures r == -1 || (StartOf(s, from) <= r && OccursAt(s, pat, r))
    ensures r == -1 ==> forall i :: StartOf(s, from) <= i ==> !OccursAt(s, pat, i)
    ensures r != -1 ==> forall i :: StartOf(s, from) <= i < r ==> !OccursAt(s, pat, i)
    decreases if from <= |s| then |s| - from else |s| + 1
  {
    if from > |s| then IndexOf(s, pat, |s|)
    else if from + |pat| > |s| then -1
    else if s[from..from + |pat|] == pat then from
    else IndexOf(s, pat, from + 1)
  }

  const PreviewMarker: string := "preview/"

  /** `isPreviewId(id)`: `'preview/'` occurs anywhere in the id, not only at its start. */
  function IsPreviewId(id: string): (r: bool)
    ensures r <==> exists i :: OccursAt(id, PreviewMarker, i)
  {
    IndexOf(id, PreviewMarker, 0) != -1
  }

  /** Every id built as `'preview/' + x` passes the test. */
  lemma PreviewPrefixIsPreview(x: string)
    ensures IsPreviewId(PreviewMarker + x)
  {
    assert OccursAt(PreviewMarker + x, PreviewMarker, 0);
  }

  /** The test is a substring test: a marker in the middle of the id also counts. */
  lemma PreviewMarkerInMiddle()
    ensures IsPreviewId("txn-preview/7")
    ensures "txn-preview/7"[..|PreviewMarker|] != PreviewMarker
  {
    assert OccursAt("txn-preview/7", PreviewMarker, 4);
    assert "txn-preview/7"[..|PreviewMarker|][0] == 't';
  }

  /** The text begins with "Transfer ". */
  predicate StartsWithTransfer(d: string) {
    |d| >= 9 && d[..9] == "Transfer "
  }

  /**
    `getDescriptionPretty`: a transfer account wins over the payee; the
    transfer reads "from" only for a strictly positive amount.
   */
  function DescriptionPretty(amount: int, payee: Option<Payee>, transferAcct: Option<Account>): (r: string)
    ensures transferAcct.Some? ==> StartsWithTransfer(r)
    ensures transferAcct.Some? ==> |r| > |transferAcct.value.name| && r[|r| - |transferAcct.value.name|..] == transferAcct.value.name
    ensures transferAcct.None? && payee.Some? ==> r == payee.value.name
    ensures transferAcct.None? && payee.None? ==> r == ""
  {
    if transferAcct.Some? then
      "Transfer " + (if amount > 0 then "from" else "to") + " " + transferAcct.value.name
    else if payee.Some? then payee.value.name
    else ""
  }

  /** With a transfer account the payee plays no part, and "from" means a positive amount. */
  lemma DescriptionTransferDirection(amount: int, p1: Option<Payee>, p2: Option<Payee>, acct: Account)
    ensures DescriptionPretty(amount, p1, Some(acct)) == DescriptionPretty(amount, p2, Some(acct))
    ensures var d := DescriptionPretty(amount, p1, Some(acct));
            (|d| >= 14 && d[..14] == "Transfer from ") <==> amount > 0
  {
    var d := DescriptionPretty(amount, p1, Some(acct));
    if amount <= 0 && |d| >= 14 {
      assert d[..14][9] == 't';
    }
  }

  /** The description is empty exactly when there is no transfer and no payee name to show. */
  lemma DescriptionEmpty(amount: int, payee: Option<Payee>, transferAcct: Option<Account>)
    ensures DescriptionPretty(amount, payee, transferAcct) == ""
            <==> transferAcct.None? && (payee.None? || payee.value.name == "")
  {
  }

  /**
    The payee a row shows: `payees && payeeId && getPayeesById(payees)[payeeId]`.
    A missing list, an absent or empty id, or an unknown id gives no payee.
   */
  function ResolvePayee(payees: Option<seq<Payee>>, payeeId: Option<string>): (r: Option<Payee>)
    ensures r.Some? ==> payees.Some? && r.value in payees.value && Some(r.value.id) == payeeId
    ensures payees.Some? && PresentId(payeeId) && (exists p :: p in payees.value && p.id == payeeId.value) ==> r.Some?
  {
    if payees.Some? && PresentId(payeeId) then
      var byId := Util.GroupById(payees.value, PayeeId);
      if payeeId.value in byId then Some(byId[payeeId.value]) else None
    else None
  }

  /**
    The account on the other side of a transfer:
    `payee && payee.transfer_acct && getAccountsById(accounts)[payee.transfer_acct]`.
   */
  function ResolveTransferAccount(accounts: seq<Account>, payee: Option<Payee>): (r: Option<Account>)
    ensures r.Some? ==> payee.Some? && r.value in accounts && payee.value.transferAcct == Some(r.value.id)
    ensures payee.None? || !PresentId(payee.value.transferAcct) ==> r.None?
    ensures (payee.Some? && PresentId(payee.value.transferAcct)
             && exists a :: a in accounts && a.id == payee.value.transferAcct.value) ==> r.Some?
  {
    if payee.Some? && PresentId(payee.value.transferAcct) then
      var byId := Util.GroupById(accounts, AccountId);
      var key := payee.value.transferAcct.value;
      if key in byId then Some(byId[key]) else None
    else None
  }

  /** The row's main text: the description, or "Empty" when it is empty. */
  function DescriptionText(description: string): (r: string)
    ensures r != ""
    ensures description != "" ==> r == description
  {
    if description != "" then description else "Empty"
  }

  /**
    The row's category text: "Transfer" for a transfer, otherwise "Split" for
    a parent, otherwise the category's name; an absent or empty result is
    shown as "Uncategorized".
   */
  function CategoryText(transferAcct: Option<Account>, isParent: bool, categoryName: Option<string>): (r: string)
    ensures r != ""
    ensures transferAcct.Some? ==> r == "Transfer"
    ensures transferAcct.None? && isParent ==> r == "Split"
    ensures transferAcct.None? && !isParent && PresentId(categoryName) ==> r == categoryName.value
    ensures transferAcct.None? && !isParent && !PresentId(categoryName) ==> r == "Uncategorized"
  {
    var pretty := if transferAcct.Some? then Some("Transfer")
                  else if isParent then Some("Split")
                  else categoryName;
    if PresentId(pretty) then pretty.value else "Uncategorized"
  }

  /**
    The category line and the description agree about transfers: with a
    transfer account both announce it; without one, a category reading
    "Transfer" or a description starting with "Transfer " can only come
    from a category or payee the user named that way.
   */
  lemma TransferLabelsAgree(amount: int, payee: Option<Payee>, transferAcct: Option<Account>,
                            isParent: bool, categoryName: Option<string>)
    ensures transferAcct.Some? ==>
              CategoryText(transferAcct, isParent, categoryName) == "Transfer"
              && StartsWithTransfer(DescriptionPretty(amount, payee, transferAcct))
    ensures transferAcct.None? && CategoryText(transferAcct, isParent, categoryName) == "Transfer" ==>
              !isParent && categoryName == Some("Transfer")
    ensures transferAcct.None? && StartsWithTransfer(DescriptionPretty(amount, payee, transferAcct)) ==>
              payee.Some? && StartsWithTransfer(payee.value.name)
  {
  }

  /** The palette entries a row's text can take (`colors.r3`, `colors.y3`, ...). */
  datatype Color = R3 | Y3 | N1 | N4 | N5 | N6

  /** `Status`: a missed schedule is red, a due one yellow, an upcoming one grey; any other status has no colour. */
  function StatusColor(status: Option<string>): (r: Option<Color>)
    ensures r == Some(R3) <==> status == Some("missed")
    ensures r == Some(Y3) <==> status == Some("due")
    ensures r == Some(N4) <==> status == Some("upcoming")
    ensures r.None? <==> status !in [Some("missed"), Some("due"), Some("upcoming")]
  {
    match status
    case Some("missed") => Some(R3)
    case Some("due") => Some(Y3)
    case Some("upcoming") => Some(N4)
    case _ => None
  }

  /**
    The colours a row renders: of its description, of its amount, of the
    schedule icon, and, for a preview only, the status line that replaces
    the category line (`None` where the row sets no colour).
   */
  datatype RowStyle = RowStyle(description: Option<Color>, amount: Option<Color>,
                               scheduleIcon: Option<Color>, statusLine: Option<Option<Color>>)

  /**
    A row's colours: a preview's description and amount are the fixed grey
    `n5` whatever its status, an empty description is `n6`, the schedule
    icon (drawn only for a row with a schedule) takes the preview grey or
    `n1`, and only a preview has a status line, coloured by `Status`.
   */
  function RowColors(id: string, notes: Option<string>, schedule: Option<string>, description: string): (r: RowStyle)
    ensures r.statusLine.Some? <==> IsPreviewId(id)
    ensures r.statusLine.Some? ==> r.statusLine.value == StatusColor(notes)
    ensures r.amount.Some? <==> IsPreviewId(id)
    ensures r.amount.Some? ==> r.amount.value == N5
    ensures description == "" ==> r.description == Some(N6)
    ensures description != "" ==> r.description == r.amount
    ensures r.scheduleIcon.Some? <==> PresentId(schedule)
    ensures r.scheduleIcon.Some? ==> r.scheduleIcon.value == (if IsPreviewId(id) then N5 else N1)
  {
    var textStyle := if IsPreviewId(id) then Some(N5) else None;
    RowStyle(if description == "" then Some(N6) else textStyle,
             textStyle,
             if !PresentId(schedule) then None else if textStyle.Some? then textStyle else Some(N1),
             if IsPreviewId(id) then Some(StatusColor(notes)) else None)
  }

  /**
    A preview's status shows only on its status line: two previews that
    differ only in status render their description, amount and icon alike.
   */
  lemma StatusOnlyOnStatusLine(id: string, n1: Option<string>, n2: Option<string>, schedule: Option<string>, description: string)
    requires IsPreviewId(id)
    ensures RowColors(id, n1, schedule, description).(statusLine := None)
            == RowColors(id, n2, schedule, description).(statusLine := None)
    ensures RowColors(id, n1, schedule, description).statusLine != RowColors(id, n2, schedule, description).statusLine
            <==> StatusColor(n1) != StatusColor(n2)
  {
  }

  datatype Sign = Positive | Negative

  /** Split children take the parent's sign: negative exactly when the parent amount is below zero. */
  function ForcedSign(parentAmount: real): (r: Sign)
    ensures r == Negative <==> parentAmount < 0.0
  {
    if parentAmount < 0.0 then Negative else Positive
  }

  /**
    The edit form's title: without a payee (`payeeId == null`) it is
    "New Transaction" while adding and "Transaction" otherwise; with a
    payee it is the description.
   */
  function EditTitle(payeeId: Option<string>, adding: bool, description: string): (r: string)
    ensures payeeId.Some? ==> r == description
    ensures payeeId.None? && adding ==> r == "New Transaction"
    ensures payeeId.None? && !adding ==> r == "Transaction"
  {
    if payeeId.None? then (if adding then "New Transaction" else "Transaction")
    else description
  }

  /** The text begins with "Transfer from ". */
  predicate StartsWithTransferFrom(d: string) {
    |d| >= 14 && d[..14] == "Transfer from "
  }

  /**
    The edit form reads the sign forced on split children and the transfer
    direction off the same parent amount (`shown`, the display form of the
    stored integer `amount`, which has the same sign). For a non-zero amount
    the children are positive exactly when the description reads "Transfer
    from"; at zero the description reads "Transfer to" while the children
    are still forced positive.
   */
  lemma ForcedSignMatchesDirection(amount: int, shown: real, payee: Option<Payee>, acct: Account)
    requires (shown > 0.0 <==> amount > 0) && (shown < 0.0 <==> amount < 0)
    ensures amount != 0 ==>
              (ForcedSign(shown) == Positive <==> StartsWithTransferFrom(DescriptionPretty(amount, payee, Some(acct))))
    ensures amount == 0 ==>
              ForcedSign(shown) == Positive && !StartsWithTransferFrom(DescriptionPretty(amount, payee, Some(acct)))
  {
    DescriptionTransferDirection(amount, payee, payee, acct);
  }
}

=== FILE: edit_session.dfy ===
/**
  The transaction edit form's working set and its single queued-change
  slot (`TransactionEdit.onEdit`, `onQueueChange` and `onSave`, identical
  in the mobile and desktop transaction files), taken one call at a time.

  An input reports each keystroke with `onQueueChange` and its final value
  with `onEdit` on blur; leaving the form does not blur the input, so
  saving first applies whatever change is still queued.
 */
module EditSession {
  import opened Wrappers
  import opened Js
  import Seqs
  import Serialization

  /** The one pending (transaction, field, value) triple. */
  datatype QueuedChange = QueuedChange(transaction: Record, name: string, value: Value)

  /** The edit form's state: the working set `[parent, ...children]` and the queued-change slot. */
  datatype Session = Session(transactions: seq<Record>, queued: Option<QueuedChange>)

  /**
    What the form is given: the optional `onEdit` hook (the rules engine),
    the data engine's `updateTransaction` and `realizeTempTransactions`, and
    the date format with its helpers.
   */
  datatype Collaborators = Collaborators(
    editHook: Option<Record -> Record>,
    updateTransaction: (seq<Record>, Record) -> seq<Record>,
    realizeTemp: seq<Record> -> seq<Record>,
    dateFormat: string,
    dates: Serialization.DateLib,
    amounts: Serialization.AmountLib)

  /** The row `onEdit` hands to `updateTransaction`: the field set, run through the hook, deserialized. */
  function EditedRow(tx: Record, name: string, value: Value, env: Collaborators): Record
  {
    var newTransaction := tx[name := value];
    var hooked := if env.editHook.Some? then env.editHook.value(newTransaction) else newTransaction;
    Serialization.Deserialize(hooked, None, env.dateFormat, env.dates, env.amounts)
  }

  /**
    `onEdit(transaction, name, value)`: the working set becomes the data
    engine's update with the edited row, the queued change is dropped, and
    the new working set is returned.
   */
  function OnEdit(s: Session, tx: Record, name: string, value: Value, env: Collaborators): (r: (Session, seq<Record>))
    ensures r.0.queued.None?
    ensures r.0.transactions == r.1
    ensures r.1 == env.updateTransaction(s.transactions, EditedRow(tx, name, value, env))
  {
    var newTransactions := env.updateTransaction(s.transactions, EditedRow(tx, name, value, env));
    (Session(newTransactions, None), newTransactions)
  }

  /**
    `onEdit` deserializes with no original row, so a typed date that is
    rejected becomes today rather than the row's previous date.
   */
  lemma EditRejectedDateIsToday(tx: Record, name: string, value: Value, env: Collaborators)
    requires env.editHook.None?
    requires Serialization.ParseTypedDate(Get(tx[name := value], "date"), env.dateFormat, env.dates).None?
    ensures EditedRow(tx, name, value, env)["date"] == Str(env.dates.currentDay)
  {
  }

  /** The fields `onTap` opens a picker for. */
  predicate PickerField(name: string) {
    name == "category" || name == "account" || name == "payee"
  }

  predicate HasRecordId(id: string, t: Record) {
    Get(t, "id") == Str(id)
  }

  /**
    What happens when the picker `onTap` opened for field `name` of the
    transaction `transactionId` reports the chosen `id`: the transaction is
    looked up in the working set, serialized, and edited with `onEdit`. No
    picker opens for any other field, and a transaction that is no longer
    in the working set makes the callback throw (None).
   */
  function OnPick(s: Session, transactionId: string, name: string, id: Value, env: Collaborators)
    : (r: Option<(Session, seq<Record>)>)
    ensures r.Some? <==> PickerField(name) && exists i :: 0 <= i < |s.transactions| && HasRecordId(transactionId, s.transactions[i])
    ensures r.Some? ==> exists i :: 0 <= i < |s.transactions| && HasRecordId(transactionId, s.transactions[i])
                          && (forall j :: 0 <= j < i ==> !HasRecordId(transactionId, s.transactions[j]))
                          && r.value == OnEdit(s, Serialization.Serialize(s.transactions[i], env.dateFormat, env.dates, env.amounts), name, id, env)
  {
    if !PickerField(name) then None
    else
      var found := Seqs.Find(s.transactions, t => HasRecordId(transactionId, t));
      if found.None? then None
      else Some(OnEdit(s, Serialization.Serialize(found.value, env.dateFormat, env.dates, env.amounts), name, id, env))
  }

  /**
    With no `onEdit` hook, the row a pick hands to `updateTransaction` holds
    the picked id in the picked field, and every field other than the date
    and the amount keeps the stored row's value.
   */
  lemma PickStoresId(t: Record, name: string, id: Value, env: Collaborators)
    requires env.editHook.None? && PickerField(name)
    ensures var row := EditedRow(Serialization.Serialize(t, env.dateFormat, env.dates, env.amounts), name, id, env);
            && row[name] == id
            && forall f :: f in t && f != name && f != "date" && f != "amount" ==> row[f] == t[f]
  {
  }

  /** `onQueueChange`: overwrites the single slot; the working set is untouched. */
  function OnQueueChange(s: Session, tx: Record, name: string, value: Value): (r: Session)
    ensures r.queued == Some(QueuedChange(tx, name, value))
    ensures r.transactions == s.transactions
  {
    s.(queued := Some(QueuedChange(tx, name, value)))
  }

  /** `t.account == null`. */
  predicate MissingAccount(t: Record) {
    IsNullish(Get(t, "account"))
  }

  /**
    What `onSave` does besides updating the form: nothing, or hand the
    transactions to the parent's `onSave` and navigate back.
   */
  datatype SaveOutcome = Ignored | Saved(saved: seq<Record>)

  /**
    `onSave(adding)`: refuses silently while any transaction of the working
    set lacks an account (checked before the queued change is applied);
    otherwise applies the queued change, realizes temporary ids when adding,
    and saves.
   */
  function OnSave(s: Session, adding: bool, env: Collaborators): (r: (Session, SaveOutcome))
    ensures r.1.Ignored? <==> exists i :: 0 <= i < |s.transactions| && MissingAccount(s.transactions[i])
    ensures r.1.Ignored? ==> r.0 == s
    ensures r.1.Saved? ==> r.0.queued.None?
    ensures r.1.Saved? && s.queued.None? ==>
              r.1.saved == (if adding then env.realizeTemp(s.transactions) else s.transactions)
    ensures r.1.Saved? && s.queued.Some? ==>
              var q := s.queued.value;
              var edited := env.updateTransaction(s.transactions, EditedRow(q.transaction, q.name, q.value, env));
              r.1.saved == (if adding then env.realizeTemp(edited) else edited)
  {
    if Seqs.Find(s.transactions, MissingAccount).Some? then
      // Ignore the save while any transaction has no account.
      (s, Ignored)
    else
      var (s1, transactions) :=
        if s.queued.Some? then OnEdit(s, s.queued.value.transaction, s.queued.value.name, s.queued.value.value, env)
        else (s, s.transactions);
      var toSave := if adding then env.realizeTemp(transactions) else transactions;
      (s1, Saved(toSave))
  }

  /** No transaction of the working set is missing an account. */
  predicate AllHaveAccounts(ts: seq<Record>) {
    forall i :: 0 <= i < |ts| ==> !MissingAccount(ts[i])
  }

  /**
    A change still queued when the user saves is saved exactly as `onEdit`
    would have applied it, provided every row had an account before the
    change: the account check runs before the queued change is applied and
    never after it. When the edited rows also all keep an account, this is
    the same save as committing the change with `onEdit` first.
   */
  lemma QueuedChangeFlushedOnSave(s: Session, tx: Record, name: string, value: Value, adding: bool, env: Collaborators)
    requires AllHaveAccounts(s.transactions)
    ensures var edited := OnEdit(s, tx, name, value, env).0.transactions;
            OnSave(OnQueueChange(s, tx, name, value), adding, env).1
            == Saved(if adding then env.realizeTemp(edited) else edited)
    ensures AllHaveAccounts(OnEdit(s, tx, name, value, env).0.transactions) ==>
              OnSave(OnQueueChange(s, tx, name, value), adding, env).1
              == OnSave(OnEdit(s, tx, name, value, env).0, adding, env).1
  {
  }

  /**
    Where the two orders differ. A row lacks an account and the queued change
    (through the rules hook, say) would fill it: the queued save is ignored,
    although committing the change first would have saved it. Conversely,
    a queued change that empties an account is still saved.
   */
  lemma QueuedSaveChecksBeforeFlush(s: Session, tx: Record, name: string, value: Value, adding: bool, env: Collaborators)
    ensures OnSave(OnQueueChange(s, tx, name, value), adding, env).1.Ignored? <==> !AllHaveAccounts(s.transactions)
    ensures OnSave(OnEdit(s, tx, name, value, env).0, adding, env).1.Ignored?
            <==> !AllHaveAccounts(OnEdit(s, tx, name, value, env).0.transactions)
  {
  }

  /** Only the latest queued change survives to the save. */
  lemma LastQueuedChangeWins(s: Session, t1: Record, n1: string, v1: Value,
                             t2: Record, n2: string, v2: Value, adding: bool, env: Collaborators)
    ensures OnSave(OnQueueChange(OnQueueChange(s, t1, n1, v1), t2, n2, v2), adding, env)
            == OnSave(OnQueueChange(s, t2, n2, v2), adding, env)
  {
  }

  /** Committing an edit empties the slot, so a later save applies nothing twice. */
  lemma EditClearsQueue(s: Session, tx: Record, name: string, value: Value, adding: bool, env: Collaborators)
    requires AllHaveAccounts(OnEdit(s, tx, name, value, env).0.transactions)
    ensures var s1 := OnEdit(s, tx, name, value, env).0;
            OnSave(s1, adding, env).1 == Saved(if adding then env.realizeTemp(s1.transactions) else s1.transactions)
  {
  }

  /**
    Temporary ids are realized only when adding, and after the queued
    change: the adding save is the realized form of the editing save.
   */
  lemma RealizeOnlyWhenAdding(s: Session, env: Collaborators)
    requires AllHaveAccounts(s.transactions)
    ensures OnSave(s, false, env).1.Saved?
    ensures OnSave(s, true, env).1 == Saved(env.realizeTemp(OnSave(s, false, env).1.saved))
  {
  }
}

=== FILE: js.dfy ===
/**
  The few JavaScript value semantics the views rely on: plain objects as
  field maps, truthiness, loose `== null` and a missing field reading as
  `undefined`.
 */
module Js {

  /** A JavaScript value as far as the modelled code distinguishes them.
      Numbers are kept as reals; NaN and infinities are not modelled. */
  datatype Value = Undefined | Null | Str(s: string) | Num(n: real) | Bool(b: bool)

  /** A plain JavaScript object: its own enumerable fields. */
  type Record = map<string, Value>

  /** `obj[field]`: a field that is absent reads as `undefined`. */
  function Get(r: Record, field: string): (v: Value)
    ensures field !in r ==> v == Undefined
    ensures field in r ==> v == r[field]
  {
    if field in r then r[field] else Undefined
  }

  /** `v == null` (loose equality): true for both `null` and `undefined`. */
  predicate IsNullish(v: Value) {
    v.Undefined? || v.Null?
  }

  /** JavaScript truthiness: `undefined`, `null`, `''`, `0` and `false` are falsy. */
  predicate Truthy(v: Value) {
    match v
    case Undefined => false
    case Null => false
    case Str(s) => s != ""
    case Num(n) => n != 0.0
    case Bool(b) => b
  }

  /** `a || b`: the first operand when it is truthy, otherwise the second. */
  function Or(a: Value, b: Value): (r: Value)
    ensures Truthy(a) ==> r == a
    ensures !Truthy(a) ==> r == b
  {
    if Truthy(a) then a else b
  }
}

=== FILE: seqs.dfy ===
/** Sequence helpers shared by the views: `Array.prototype.filter`, `includes`, `find`. */
module Seqs {
  import opened Wrappers

  /** `xs.filter(p)`: the elements satisfying `p`, in their original order. */
  function Filter<T>(xs: seq<T>, p: T -> bool): (r: seq<T>)
    ensures |r| <= |xs|
    ensures forall i :: 0 <= i < |r| ==> r[i] in xs && p(r[i])
    ensures forall i :: 0 <= i < |xs| && p(xs[i]) ==> xs[i] in r
  {
    if |xs| == 0 then []
    else if p(xs[0]) then [xs[0]] + Filter(xs[1..], p)
    else Filter(xs[1..], p)
  }

  /** Filtering distributes over concatenation: the filter keeps relative order. */
  lemma {:induction false} FilterConcat<T>(a: seq<T>, b: seq<T>, p: T -> bool)
    ensures Filter(a + b, p) == Filter(a, p) + Filter(b, p)
  {
    if |a| == 0 {
      assert a + b == b;
    } else {
      assert (a + b)[1..] == a[1..] + b;
      FilterConcat(a[1..], b, p);
    }
  }

  /** A filter that keeps every element is the identity. */
  lemma {:induction false} FilterAll<T>(xs: seq<T>, p: T -> bool)
    requires forall i :: 0 <= i < |xs| ==> p(xs[i])
    ensures Filter(xs, p) == xs
  {
    if |xs| > 0 {
      FilterAll(xs[1..], p);
    }
  }

  /** A non-empty sequence is its prefix followed by its last element. */
  lemma SplitLast<T>(s: seq<T>)
    requires |s| > 0
    ensures s == s[..|s| - 1] + [s[|s| - 1]]
  {
  }

  /** A prefix one longer is the prefix followed by the next element. */
  lemma TakeSnoc<T>(s: seq<T>, i: int)
    requires 0 <= i < |s|
    ensures s[..i + 1] == s[..i] + [s[i]]
  {
  }

  /** Concatenation is associative. */
  lemma AppendAssoc<T>(a: seq<T>, b: seq<T>, c: seq<T>)
    ensures (a + b) + c == a + (b + c)
  {
  }

  /** `xs.includes(x)`, written as the linear scan it performs. */
  function Includes<T(==)>(xs: seq<T>, x: T): (r: bool)
    ensures r <==> x in xs
  {
    if |xs| == 0 then false
    else xs[0] == x || Includes(xs[1..], x)
  }

  /** `xs.find(p)`: the first element satisfying `p`, or None (`undefined`). */
  function Find<T(==)>(xs: seq<T>, p: T -> bool): (r: Option<T>)
    ensures r.None? <==> forall i :: 0 <= i < |xs| ==> !p(xs[i])
    ensures r.Some? ==> exists i :: 0 <= i < |xs| && xs[i] == r.value && p(r.value)
                          && forall j :: 0 <= j < i ==> !p(xs[j])
  {
    if |xs| == 0 then None
    else if p(xs[0]) then Some(xs[0])
    else
      var r := Find(xs[1..], p);
      assert r.Some? ==> exists i :: 1 <= i < |xs| && xs[i] == r.value && p(r.value)
                          && forall j :: 0 <= j < i ==> !p(xs[j]) by {
        if r.Some? {
          var i :| 0 <= i < |xs[1..]| && xs[1..][i] == r.value && p(r.value)
                   && forall j :: 0 <= j < i ==> !p(xs[1..][j]);
          assert xs[i + 1] == r.value;
        }
      }
      r
  }
}

=== FILE: serialization.dfy ===
/**
  The edit form's conversion of a transaction to and from its display
  form (`serializeTransaction` / `deserializeTransaction`, identical in the
  mobile and desktop transaction files). The date library, the month
  helpers and the amount conversions are parameters: they are not part of
  this model.
 */
module Serialization {
  import opened Wrappers
  import opened Js

  /** What parsing a typed date yields: whether it is a valid date, its year, and the day it names. */
  datatype ParsedDate = ParsedDate(valid: bool, fullYear: int, day: string)

  /**
    The date helpers the adapter calls, each taking the date format first:
    the day/month pattern test, parsing with the day/month format, parsing
    with the full format, formatting a stored ISO date, and today's day.
   */
  datatype DateLib = DateLib(
    matchesDayMonth: (string, Value) -> bool,
    parseDayMonth: (string, Value) -> ParsedDate,
    parseFull: (string, Value) -> ParsedDate,
    formatIso: (string, Value) -> Value,
    currentDay: string)

  /** `amountToInteger` and `integerToAmount`. */
  datatype AmountLib = AmountLib(toInteger: Value -> int, toAmount: Value -> Value)

  /**
    The typed date as a day, or None when it is rejected. A date matching
    the day/month pattern is accepted when it parses to a valid date; any
    other date must parse to a valid date whose year is after 2000.
   */
  function ParseTypedDate(date: Value, dateFormat: string, lib: DateLib): (r: Option<string>)
    ensures lib.matchesDayMonth(dateFormat, date) ==>
              (r.Some? <==> lib.parseDayMonth(dateFormat, date).valid)
    ensures !lib.matchesDayMonth(dateFormat, date) ==>
              (r.Some? <==> lib.parseFull(dateFormat, date).valid && lib.parseFull(dateFormat, date).fullYear > 2000)
    ensures r.Some? ==> r.value == (if lib.matchesDayMonth(dateFormat, date)
                                    then lib.parseDayMonth(dateFormat, date)
                                    else lib.parseFull(dateFormat, date)).day
  {
    if lib.matchesDayMonth(dateFormat, date) then
      var test := lib.parseDayMonth(dateFormat, date);
      if test.valid then Some(test.day) else None
    else
      var test := lib.parseFull(dateFormat, date);
      // A sanity check against a typo such as "year 201".
      if test.fullYear > 2000 && test.valid then Some(test.day) else None
  }

  /** The date used when the typed one is rejected: the original's date if it has one, else today. */
  function FallbackDate(original: Option<Record>, lib: DateLib): (r: Value)
    ensures !IsNullish(r)
    ensures original.Some? && Truthy(Get(original.value, "date")) ==> r == Get(original.value, "date")
    ensures !(original.Some? && Truthy(Get(original.value, "date"))) ==> r == Str(lib.currentDay)
  {
    var originalDate := if original.Some? then Get(original.value, "date") else Null;
    Or(originalDate, Str(lib.currentDay))
  }

  /**
    `deserializeTransaction`: every field other than `date` and `amount`
    passes through; the date is the accepted typed day or the fallback; the
    amount is converted back to an integer, a falsy amount counting as 0.
   */
  function Deserialize(t: Record, original: Option<Record>, dateFormat: string,
                       dates: DateLib, amounts: AmountLib): (r: Record)
    ensures r.Keys == t.Keys + {"date", "amount"}
    ensures forall f :: f in t && f != "date" && f != "amount" ==> r[f] == t[f]
    ensures !IsNullish(r["date"])
    ensures var p := ParseTypedDate(Get(t, "date"), dateFormat, dates);
            p.Some? ==> r["date"] == Str(p.value)
    ensures Truthy(Get(t, "amount")) ==> r["amount"] == Num(amounts.toInteger(Get(t, "amount")) as real)
    ensures !Truthy(Get(t, "amount")) ==> r["amount"] == Num(amounts.toInteger(Num(0.0)) as real)
  {
    var parsed := ParseTypedDate(Get(t, "date"), dateFormat, dates);
    var date := if parsed.Some? then Str(parsed.value) else FallbackDate(original, dates);
    var amount := Num(amounts.toInteger(Or(Get(t, "amount"), Num(0.0))) as real);
    (t - {"amount", "date"})["date" := date]["amount" := amount]
  }

  /** A rejected date never reaches storage: it is replaced by the fallback. */
  lemma DeserializeRejectedDate(t: Record, original: Option<Record>, dateFormat: string,
                                dates: DateLib, amounts: AmountLib)
    requires ParseTypedDate(Get(t, "date"), dateFormat, dates).None?
    ensures Deserialize(t, original, dateFormat, dates, amounts)["date"] == FallbackDate(original, dates)
  {
  }

  /** A full-format date in year 2000 or before is rejected even when it is a valid date. */
  lemma YearGate(date: Value, dateFormat: string, lib: DateLib)
    requires !lib.matchesDayMonth(dateFormat, date)
    requires lib.parseFull(dateFormat, date).fullYear <= 2000
    ensures ParseTypedDate(date, dateFormat, lib).None?
  {
  }

  /**
    `serializeTransaction`: the stored ISO date formatted for display and
    the integer amount (a falsy one counting as 0) as a decimal; every
    other field passes through.
   */
  function Serialize(t: Record, dateFormat: string, dates: DateLib, amounts: AmountLib): (r: Record)
    ensures r.Keys == t.Keys + {"date", "amount"}
    ensures forall f :: f in t && f != "date" && f != "amount" ==> r[f] == t[f]
  {
    t["date" := dates.formatIso(dateFormat, Get(t, "date"))]
     ["amount" := amounts.toAmount(Or(Get(t, "amount"), Num(0.0)))]
  }

  /**
    Round trip: when the format writes a full date that parses back to the
    same day after 2000 and the amount conversions invert each other, a
    stored transaction comes back unchanged from its display form.
   */
  lemma SerializeRoundTrip(t: Record, n: int, d: string, dateFormat: string,
                                              dates: DateLib, amounts: AmountLib)
    requires Get(t, "date") == Str(d) && Get(t, "amount") == Num(n as real)
    requires var shown := dates.formatIso(dateFormat, Str(d));
             && !dates.matchesDayMonth(dateFormat, shown)
             && dates.parseFull(dateFormat, shown).valid
             && dates.parseFull(dateFormat, shown).fullYear > 2000
             && dates.parseFull(dateFormat, shown).day == d
    requires amounts.toInteger(Or(amounts.toAmount(Or(Num(n as real), Num(0.0))), Num(0.0))) == n
    ensures Deserialize(Serialize(t, dateFormat, dates, amounts), None, dateFormat, dates, amounts) == t
  {
    var s := Serialize(t, dateFormat, dates, amounts);
    var r := Deserialize(s, None, dateFormat, dates, amounts);
    assert Get(s, "date") == dates.formatIso(dateFormat, Str(d));
    assert r["date"] == Str(d);
    if n == 0 {
      assert Or(Num(n as real), Num(0.0)) == Num(0.0);
    }
    assert r["amount"] == Num(n as real);
    assert r.Keys == t.Keys;
  }
}

=== FILE: stacked_routes.dfy ===
/**
  How the app turns the current location into a base page and a stack of
  modal pages (`StackedRoutes` in `FinancesApp.js`): each location may point,
  through its `locationPtr` state, to the location it was opened over.
 */
module StackedRoutes {
  import opened Wrappers

  /** A history location and the location it was opened over, if any. */
  datatype Location = Location(key: string, pathname: string, ptr: Option<Location>)

  /** The chain of locations up to and including `ptr`, oldest first. */
  function Chain(ptr: Option<Location>): seq<Location>
  {
    match ptr
    case None => []
    case Some(p) => Chain(p.ptr) + [p]
  }

  /** Consecutive entries are linked: each one was opened over the one before it, and the first over nothing. */
  ghost predicate Linked(ls: seq<Location>) {
    && (|ls| > 0 ==> ls[0].ptr.None?)
    && forall i :: 1 <= i < |ls| ==> ls[i].ptr == Some(ls[i - 1])
  }

  lemma {:induction false} ChainLinked(ptr: Option<Location>)
    ensures Linked(Chain(ptr))
    ensures ptr.Some? ==> |Chain(ptr)| > 0 && Chain(ptr)[|Chain(ptr)| - 1] == ptr.value
  {
    match ptr
    case None =>
    case Some(p) =>
      ChainLinked(p.ptr);
  }

  /**
    `StackedRoutes`: the locations from the oldest to the current one, built
    by following `locationPtr` and putting each predecessor in front; the
    oldest is the base page, the rest are stacked as modals, and the last
    stacked entry is the one marked current.
   */
  method Unwind(location: Location) returns (base: Location, stack: seq<Location>, current: seq<bool>)
    ensures [base] + stack == Chain(Some(location))
    ensures Linked([base] + stack)
    ensures base.ptr.None?
    ensures location.ptr.None? ==> base == location && stack == []
    ensures location.ptr.Some? ==> |stack| > 0 && stack[|stack| - 1] == location
    ensures ([base] + stack)[|stack|] == location
    ensures |current| == |stack|
    ensures forall i :: 0 <= i < |current| ==> (current[i] <==> i == |stack| - 1)
  {
    var locations := [location];
    var ptr := location.ptr;
    while ptr.Some?
      invariant |locations| > 0
      invariant Chain(ptr) + locations == Chain(Some(location))
      decreases ptr
    {
      locations := [ptr.value] + locations;
      ptr := ptr.value.ptr;
    }
    ChainLinked(Some(location));
    assert locations[|locations| - 1] == location;
    assert location.ptr.None? ==> locations == [location];
    base := locations[0];
    stack := locations[1..];
    assert [base] + stack == locations;
    current := seq(|stack|, idx requires 0 <= idx < |stack| => idx == |stack| - 1);
  }
}

=== FILE: transaction_list.dfy ===
/**
  The desktop transaction list's write paths (`MobileTransactionList.js`):
  saving a diff through the data engine, choosing between an optimistic
  update and a full refetch after an edit, adding and splitting
  transactions, and merging what the rules engine proposes into a row.

  The data engine's replies and loot-core's diff builders are parameters.
  Side effects are returned, in order, as a list of `Effect`s.
 */
module TransactionListSave {
  import opened Wrappers
  import opened Js

  /** A transaction diff as the batch update takes it. */
  datatype Diff = Diff(added: seq<Record>, updated: seq<Record>, deleted: seq<Record>)

  /** What loot-core's `updateTransaction`, `splitTransaction` and `addSplitTransaction` return. */
  datatype Changes = Changes(newTransaction: Record, data: seq<Record>, diff: Diff)

  /** The `transactions-batch-update` request: the diff plus `learnCategories: true`. */
  datatype BatchRequest = BatchRequest(diff: Diff, learnCategories: bool)

  /** What `saveDiff` resolves to: `{updates}` or `{}`. */
  datatype RemoteDiff = NoUpdates | Updates(updates: seq<Record>)

  /** The effects the list performs, in the order it performs them. */
  datatype Effect =
    | SaveDiff(request: BatchRequest)                    // await saveDiff(diff)
    | SaveDiffAndApply(request: BatchRequest, changes: Changes)  // saveDiffAndApply(diff, changes, onChange), not awaited
    | ShowChange(newTransaction: Record, data: seq<Record>)      // onChange(newTransaction, data)
    | Refetch                                             // onRefetch()

  /** The request `saveDiff(diff)` sends: the diff, asking the engine to learn categories. */
  function BatchUpdate(diff: Diff): (r: BatchRequest)
    ensures r.diff == diff && r.learnCategories
  {
    BatchRequest(diff, true)
  }

  /** `saveDiff`'s result: the remote updates when there are any, otherwise an empty object. */
  function SaveDiffResult(remoteUpdates: seq<Record>): (r: RemoteDiff)
    ensures r.Updates? <==> |remoteUpdates| > 0
    ensures r.Updates? ==> r.updates == remoteUpdates
  {
    if |remoteUpdates| > 0 then Updates(remoteUpdates) else NoUpdates
  }

  /** The optimistic path: show the change at once, then save and apply the engine's reply. */
  function Optimistic(changes: Changes): (r: seq<Effect>)
    ensures |r| == 2 && r[0].ShowChange? && r[1].SaveDiffAndApply?
    ensures r[0].newTransaction == changes.newTransaction && r[0].data == changes.data
    ensures r[1].request == BatchUpdate(changes.diff) && r[1].changes == changes
  {
    [ShowChange(changes.newTransaction, changes.data), SaveDiffAndApply(BatchUpdate(changes.diff), changes)]
  }

  /** loot-core's `applyTransactionDiff` and `applyChanges`, which merge the engine's reply into the local data. */
  datatype ApplyLib = ApplyLib(applyTransactionDiff: (Record, RemoteDiff) -> Record,
                               applyChanges: (RemoteDiff, seq<Record>) -> seq<Record>)

  /**
    The second `onChange` of `saveDiffAndApply`, once the engine has
    answered the batch update with `remoteUpdates`: the reply, as `saveDiff`
    shapes it, merged into the changed row and the changed data.
   */
  function ApplySaveReply(changes: Changes, remoteUpdates: seq<Record>, lib: ApplyLib): (r: Effect)
    ensures r.ShowChange?
    ensures |remoteUpdates| == 0 ==>
              r == ShowChange(lib.applyTransactionDiff(changes.newTransaction, NoUpdates),
                              lib.applyChanges(NoUpdates, changes.data))
    ensures |remoteUpdates| > 0 ==>
              r == ShowChange(lib.applyTransactionDiff(changes.newTransaction, Updates(remoteUpdates)),
                              lib.applyChanges(Updates(remoteUpdates), changes.data))
  {
    var remoteDiff := SaveDiffResult(remoteUpdates);
    ShowChange(lib.applyTransactionDiff(changes.newTransaction, remoteDiff),
               lib.applyChanges(remoteDiff, changes.data))
  }

  /**
    When the engine changes nothing, the reply is the empty object; if
    merging an empty reply leaves the data as it is, the second `onChange`
    shows exactly what the optimistic update already showed.
   */
  lemma EmptyReplyReshowsOptimistic(changes: Changes, lib: ApplyLib)
    requires lib.applyTransactionDiff(changes.newTransaction, NoUpdates) == changes.newTransaction
    requires lib.applyChanges(NoUpdates, changes.data) == changes.data
    ensures SaveDiffResult([]) == NoUpdates
    ensures ApplySaveReply(changes, [], lib) == Optimistic(changes)[0]
  {
  }

  /** The diff with its first update stamped with a `sort_order`. */
  function StampFirstUpdate(diff: Diff, now: real): (r: Diff)
    requires |diff.updated| > 0
    ensures r.added == diff.added && r.deleted == diff.deleted && |r.updated| == |diff.updated|
    ensures r.updated[0] == diff.updated[0]["sort_order" := Num(now)]
    ensures r.updated[1..] == diff.updated[1..]
  {
    diff.(updated := [diff.updated[0]["sort_order" := Num(now)]] + diff.updated[1..])
  }

  /**
    `onSave(transaction)`: nothing when the change updates no row. When the
    first update changes the date, it is stamped with `sort_order = now`
    (so it sorts first within its date), saved, and the list refetched;
    otherwise the change is shown optimistically before it is saved.
   */
  function OnSave(latest: seq<Record>, transaction: Record,
                  updateTransaction: (seq<Record>, Record) -> Changes, now: real): (r: seq<Effect>)
    ensures var changes := updateTransaction(latest, transaction);
      && (r == [] <==> |changes.diff.updated| == 0)
      && (|changes.diff.updated| > 0 && Truthy(Get(changes.diff.updated[0], "date")) ==>
            r == [SaveDiff(BatchUpdate(StampFirstUpdate(changes.diff, now))), Refetch])
      && (|changes.diff.updated| > 0 && !Truthy(Get(changes.diff.updated[0], "date")) ==>
            r == Optimistic(changes))
  {
    var changes := updateTransaction(latest, transaction);
    if |changes.diff.updated| > 0 then
      var dateChanged := Truthy(Get(changes.diff.updated[0], "date"));
      if dateChanged then
        [SaveDiff(BatchUpdate(StampFirstUpdate(changes.diff, now))), Refetch]
      else
        Optimistic(changes)
    else []
  }

  /** A date change is never shown optimistically; any other update never refetches. */
  lemma OnSaveRefetchOrOptimistic(latest: seq<Record>, transaction: Record,
                                  updateTransaction: (seq<Record>, Record) -> Changes, now: real)
    ensures var r := OnSave(latest, transaction, updateTransaction, now);
            (Refetch in r) <==> (|r| > 0 && !r[0].ShowChange?)
  {
  }

  /**
    `onAdd(newTransactions)`: temporary ids are realized first, the rows are
    saved as additions, and the list is always refetched afterwards.
   */
  function OnAdd(newTransactions: seq<Record>, realizeTemp: seq<Record> -> seq<Record>): (r: seq<Effect>)
    ensures |r| == 2 && r[1] == Refetch
    ensures r[0] == SaveDiff(BatchUpdate(Diff(realizeTemp(newTransactions), [], [])))
  {
    [SaveDiff(BatchUpdate(Diff(realizeTemp(newTransactions), [], []))), Refetch]
  }

  /**
    `onSplit(id)` / `onAddSplit(id)`: the split is shown optimistically and
    saved; the id of the first added row is returned. With no added row
    the source throws, here None.
   */
  function OnSplit(changes: Changes): (r: (seq<Effect>, Option<Value>))
    ensures r.0 == Optimistic(changes)
    ensures r.1.Some? <==> |changes.diff.added| > 0
    ensures r.1.Some? ==> r.1.value == Get(changes.diff.added[0], "id")
  {
    var effects := Optimistic(changes);
    if |changes.diff.added| > 0 then (effects, Some(Get(changes.diff.added[0], "id"))) else (effects, None)
  }

  /**
    Every write keeps to one of the two ways of updating the screen: it is
    refetched exactly when it is not shown optimistically.
   */
  predicate OneStrategy(r: seq<Effect>) {
    (Refetch in r) <==> !(exists e :: e in r && e.ShowChange?)
  }

  /**
    Adding, splitting and every save that writes something each take one
    strategy; additions are sent with no updated or deleted rows.
   */
  lemma WritePathsOneStrategy(newTransactions: seq<Record>, realizeTemp: seq<Record> -> seq<Record>,
                              changes: Changes, latest: seq<Record>, transaction: Record,
                              updateTransaction: (seq<Record>, Record) -> Changes, now: real)
    ensures OneStrategy(OnAdd(newTransactions, realizeTemp))
    ensures OnAdd(newTransactions, realizeTemp)[0].request.diff.updated == []
    ensures OnAdd(newTransactions, realizeTemp)[0].request.diff.deleted == []
    ensures OneStrategy(OnSplit(changes).0)
    ensures OnSave(latest, transaction, updateTransaction, now) != [] ==>
              OneStrategy(OnSave(latest, transaction, updateTransaction, now))
  {
    var add := OnAdd(newTransactions, realizeTemp);
    assert add[0] in add;
    var split := OnSplit(changes).0;
    assert split[0] in split && split[1] in split;
    var save := OnSave(latest, transaction, updateTransaction, now);
    if save != [] {
      assert save[0] in save;
    }
  }

  /** A field the rules may fill: `null`/`undefined`, `''` or `0`. */
  predicate IsEmptyField(v: Value) {
    IsNullish(v) || v == Str("") || v == Num(0.0)
  }

  /**
    `onApplyRules`: of the fields the rules changed (`diff`), only those the
    row leaves empty are taken over; every other field keeps its value. With
    no diff the row is returned as it is.
   */
  function ApplyRules(transaction: Record, diff: Option<Record>): (r: Record)
    ensures diff.None? ==> r == transaction
    ensures diff.Some? ==> r.Keys == transaction.Keys + (set f | f in diff.value && IsEmptyField(Get(transaction, f)))
    ensures diff.Some? ==> forall f :: f in diff.value && IsEmptyField(Get(transaction, f)) ==> Get(r, f) == diff.value[f]
    ensures forall f :: (diff.None? || f !in diff.value || !IsEmptyField(Get(transaction, f))) ==> Get(r, f) == Get(transaction, f)
  {
    if diff.None? then transaction
    else
      var d := diff.value;
      map f | f in transaction.Keys + d.Keys ::
        if f in d && IsEmptyField(Get(transaction, f)) then d[f] else transaction[f]
  }

  /** Applying the same rule diff twice changes nothing more. */
  lemma ApplyRulesIdempotent(transaction: Record, diff: Option<Record>)
    ensures ApplyRules(ApplyRules(transaction, diff), diff) == ApplyRules(transaction, diff)
  {
    if diff.Some? {
      var once := ApplyRules(transaction, diff);
      var twice := ApplyRules(once, diff);
      forall f | f in twice.Keys + once.Keys
        ensures f in twice && f in once && twice[f] == once[f]
      {
        assert Get(twice, f) == Get(once, f);
      }
    }
  }
}

=== FILE: transactions.dfy ===
/**
  The records the account and transaction views display: a transaction
  row as fetched from the data engine, a payee and an account.
 */
module Transactions {
  import opened Wrappers

  /**
    A transaction row. Nullable fields are `Option`s. `isLast` is the flag
    the date grouping writes onto the trailing row of a closed section.
   */
  datatype Transaction = Transaction(
    id: string,
    account: Option<string>,
    payee: Option<string>,
    category: Option<string>,
    amount: int,
    date: string,
    notes: Option<string>,
    isParent: bool,
    isChild: bool,
    schedule: Option<string>,
    isLast: bool)

  /** A payee; a transfer payee names the account on the other side. */
  datatype Payee = Payee(id: string, name: string, transferAcct: Option<string>)

  /**
    An account. `offbudget` is the stored integer flag (0 on budget,
    1 off budget); other values are possible in the data and are kept.
   */
  datatype Account = Account(id: string, name: string, offbudget: int, closed: bool)

  function PayeeId(p: Payee): string { p.id }
  function AccountId(a: Account): string { a.id }

  /** An optional string id as a truthiness test sees it: absent or empty is false. */
  predicate PresentId(id: Option<string>) {
    id.Some? && id.value != ""
  }
}

=== FILE: util.dfy ===
/**
  The desktop client's small utilities: splitting a modal route name,
  the mobile-width test and indexing a list of records by id.
 */
module Util {
  import opened Wrappers
  import Seqs

  /** `s.split('/')`: the pieces between separators; there is always at least one. */
  function Split(s: string): (parts: seq<string>)
    ensures |parts| >= 1
    ensures forall k :: 0 <= k < |parts| ==> '/' !in parts[k]
    ensures '/' !in s ==> parts == [s]
    decreases |s|
  {
    if |s| == 0 then [""]
    else
      var rest := Split(s[1..]);
      if s[0] == '/' then [""] + rest
      else
        assert s == [s[0]] + s[1..];
        [[s[0]] + rest[0]] + rest[1..]
  }

  /** `parts.join('/')`; joining no parts gives the empty string. */
  function Join(parts: seq<string>): string
  {
    if |parts| == 0 then ""
    else if |parts| == 1 then parts[0]
    else parts[0] + "/" + Join(parts[1..])
  }

  /** Joining the pieces of a split gives back the original string. */
  lemma {:induction false} JoinSplit(s: string)
    ensures Join(Split(s)) == s
    decreases |s|
  {
    if |s| > 0 {
      var rest := Split(s[1..]);
      JoinSplit(s[1..]);
      if s[0] == '/' {
        assert Split(s) == [""] + rest;
        assert Join(Split(s)) == "" + "/" + Join(rest);
      } else {
        var parts := Split(s);
        assert parts == [[s[0]] + rest[0]] + rest[1..];
        if |rest| == 1 {
          assert Join(parts) == [s[0]] + rest[0];
        } else {
          assert parts[1..] == rest[1..];
          assert Join(parts) == [s[0]] + rest[0] + "/" + Join(rest[1..]);
          assert Join(rest) == rest[0] + "/" + Join(rest[1..]);
        }
        assert s == [s[0]] + s[1..];
      }
    }
  }

  /** A string containing the separator splits into at least two pieces. */
  lemma {:induction false} SplitAtSeparator(s: string)
    requires '/' in s
    ensures |Split(s)| >= 2
    decreases |s|
  {
    if s[0] != '/' {
      assert '/' in s[1..] by {
        var i :| 0 <= i < |s| && s[i] == '/';
        assert s[1..][i - 1] == '/';
      }
      SplitAtSeparator(s[1..]);
    }
  }

  /**
    `getModalRoute(name)`: the text before the first '/' and everything
    after it (further separators included), as a pair.
   */
  function GetModalRoute(name: string): (r: (string, string))
    ensures '/' !in r.0
    ensures '/' in name ==> r.0 + "/" + r.1 == name
    ensures '/' !in name ==> r == (name, "")
  {
    var parts := Split(name);
    JoinSplit(name);
    if '/' in name then SplitAtSeparator(name); (parts[0], Join(parts[1..]))
    else (parts[0], Join(parts[1..]))
  }

  /** The width below which the layout switches to the mobile views. */
  const MobileWidthLimit: int := 600

  /**
    `isMobile(width)`: `width || window.innerWidth` compared with 600. An
    absent (`undefined`) or zero width falls back to the window's width.
   */
  function IsMobile(width: Option<int>, windowInnerWidth: int): (r: bool)
    ensures width.Some? && width.value != 0 ==> (r <==> width.value < 600)
    ensures (width.None? || width.value == 0) ==> (r <==> windowInnerWidth < 600)
  {
    var containerWidth := if width.Some? && width.value != 0 then width.value else windowInnerWidth;
    containerWidth < MobileWidthLimit
  }

  /** A narrower container is mobile whenever a wider one is. */
  lemma IsMobileMonotone(w1: int, w2: int, windowInnerWidth: int)
    requires w2 != 0 && w2 <= w1 && IsMobile(Some(w1), windowInnerWidth)
    ensures IsMobile(Some(w2), windowInnerWidth)
  {
  }

  /** Index `i` holds the last element of `data` whose id is `idOf(data[i])`. */
  ghost predicate IsLastWithId<K, T>(data: seq<T>, idOf: T -> K, i: int)
  {
    0 <= i < |data| && forall j :: i < j < |data| ==> idOf(data[j]) != idOf(data[i])
  }

  /**
    Writing one more item keeps the "each key holds the last item with that
    id" property: the new item wins for its own id, earlier entries for the others.
   */
  lemma LastWithIdExtend<K, T>(prefix: seq<T>, idOf: T -> K, item: T, m0: map<K, T>)
    requires forall k :: k in m0 ==> exists i :: IsLastWithId(prefix, idOf, i) && idOf(prefix[i]) == k && m0[k] == prefix[i]
    ensures var data, m := prefix + [item], m0[idOf(item) := item];
            forall k :: k in m ==> exists i :: IsLastWithId(data, idOf, i) && idOf(data[i]) == k && m[k] == data[i]
  {
    var data, m := prefix + [item], m0[idOf(item) := item];
    forall k | k in m
      ensures exists i :: IsLastWithId(data, idOf, i) && idOf(data[i]) == k && m[k] == data[i]
    {
      if k == idOf(item) {
        assert IsLastWithId(data, idOf, |prefix|);
      } else {
        var i :| IsLastWithId(prefix, idOf, i) && idOf(prefix[i]) == k && m0[k] == prefix[i];
        assert IsLastWithId(data, idOf, i);
      }
    }
  }

  /**
    `groupById(data)`: an object keyed by each item's id. Items are written
    in order, so for a repeated id the later item overwrites the earlier.
   */
  function GroupById<K, T>(data: seq<T>, idOf: T -> K): (m: map<K, T>)
    ensures forall i :: 0 <= i < |data| ==> idOf(data[i]) in m
    ensures forall k :: k in m ==> exists i :: IsLastWithId(data, idOf, i) && idOf(data[i]) == k && m[k] == data[i]
    ensures forall k :: k in m ==> idOf(m[k]) == k
  {
    if |data| == 0 then map[]
    else
      var prefix := data[..|data| - 1];
      var item := data[|data| - 1];
      var m := GroupById(prefix, idOf)[idOf(item) := item];
      Seqs.SplitLast(data);
      LastWithIdExtend(prefix, idOf, item, GroupById(prefix, idOf));
      m
  }

  /** With repeated ids the item written last is the one kept. */
  lemma GroupByIdLaterWins<K, T>(data: seq<T>, idOf: T -> K, i: int)
    requires IsLastWithId(data, idOf, i)
    ensures GroupById(data, idOf)[idOf(data[i])] == data[i]
  {
    var m := GroupById(data, idOf);
    var j :| IsLastWithId(data, idOf, j) && idOf(data[j]) == idOf(data[i]) && m[idOf(data[i])] == data[j];
    assert i == j;
  }

  /** The keys of `groupById(data)` are exactly the ids that occur in `data`. */
  lemma GroupByIdKeys<K, T>(data: seq<T>, idOf: T -> K, k: K)
    ensures k in GroupById(data, idOf) <==> exists i :: 0 <= i < |data| && idOf(data[i]) == k
  {
    var m := GroupById(data, idOf);
    if k in m {
      var i :| IsLastWithId(data, idOf, i) && idOf(data[i]) == k && m[k] == data[i];
    }
  }
}

=== FILE: wrappers.dfy ===
/** Option, the model's stand-in for JavaScript's `null` / `undefined` / "not found". */
module Wrappers {

  datatype Option<+T> = None | Some(value: T) {

    /** Returns the value encapsulated in Some or a default value if None */
    function GetOr(default: T): T {
      match this
      case Some(v) => v
      case None => default
    }
  }
}
